=== FILE: README.md ===
# Client profile dashboard: a Dafny model

This project models the business logic of the client profile page of the
TAHEEL dashboard (`app/dashboard/client/profile/page.js`). The page loads a
client's user document and builds the following from it:

- the client type and, for a company, the owner-identity card;
- for a resident, the companies they own;
- the service catalog, partitioned into four buckets, and the services
  shown for the client type, with a search filter;
- the client's notifications, newest first, with an unread badge.

It also lets the client top up the wallet. A paid top-up credits the
wallet, grants bonus coins for four fixed tier amounts, and records one
notification per balance it changes. A notification can be marked as read.

The model keeps the page's data as immutable records and its logic as pure
functions. The store is a pair of maps from document id to record. A top-up
is an ordered list of writes, which `Wallet.ApplyWrites` plays against the
store. The payment gateway's verdict, the clock and the random suffix of
notification ids are inputs.

Modules, in dependency order:

| file | module | what it holds |
|---|---|---|
| `js_values.dfy` | `JsValues` | optional document fields, `a \|\| b` on strings, `x \|\| 0` on numbers |
| `seqs.dfy` | `Seqs` | order-preserving filter, the shape of every query and bucket |
| `text.dfy` | `Text` | `toLowerCase`, `trim`, `includes`, `localeCompare`, decimal rendering |
| `profile.dfy` | `Profile` | accounts, client type, owner card and `ownerResident` state, related companies |
| `catalog.dfy` | `Catalog` | services, partition into buckets, displayed services, search |
| `ledger.dfy` | `Ledger` | notifications: creation, ids, read state, sorting, the client's list |
| `wallet.dfy` | `Wallet` | bonus table, the top-up's writes, playing writes against the store |
| `dashboard.dfy` | `Dashboard` | the view one load produces; a top-up followed by a reload |

The model follows the page's code exactly in these places:

- The client type is lower-cased but not trimmed (line 262).
- The `ownerResident` state and the related-company lookup compare `type`
  with "company" and "resident" exactly, with no lower-casing (lines 84
  and 99). The owner card the page renders follows the lower-cased client
  type instead (lines 488-503), and nothing reads `ownerResident` back. The
  lemmas at the end of `profile.dfy` show the records on which these tests
  and the client type disagree.
- The search trims and lower-cases the query. It lower-cases the name but
  does not trim it (lines 184-186).
- A notification counts as unread unless `isRead` is `true`, so a record
  with no `isRead` field is unread (`!n.isRead`, lines 322-324).
- The bonus table has four tiers: 100, 500, 1000 and 5000 (lines 211-215).
  Every amount is credited to the wallet, whatever its tier (line 217).

## Model

| member | source | states |
|---|---|---|
| `Profile.ClientType` | app/dashboard/client/profile/page.js:262 | The client type is the lower-cased `type` when it is non-empty, else the lower-cased `accountType` when that is non-empty, else "". It holds no upper-case letter. |
| `Profile.OwnerResident` | app/dashboard/client/profile/page.js:84-96 | The `ownerResident` state is set if and only if `type` or `accountType` is exactly "company". It copies the six owner fields and the account's phone. The page never displays it. |
| `Profile.RenderedOwnerCard` | app/dashboard/client/profile/page.js:488-503 | The owner card in the personal section is rendered if and only if the client type is "company". It shows the six owner fields and the account's phone. |
| `Profile.OwnerCardMatchesOwnerResident` | app/dashboard/client/profile/page.js:84-96 | When both exist, the rendered owner card and the `ownerResident` state hold the same identity. |
| `Profile.RelatedCompanies` | app/dashboard/client/profile/page.js:98-109 | An account is listed if and only if the lookup runs (`type` exactly "resident", non-empty `userId`), the account is stored, its `type` is "company", and its owner is the resident's name or id. Without the lookup the list is empty. |
| `Profile.RelatedCompaniesKeepOrder` | app/dashboard/client/profile/page.js:100-107 | The lookup keeps store order: the companies found in two batches of documents, concatenated, are the companies found in the whole. |
| `Profile.RelatedCompaniesMultiplicity` | app/dashboard/client/profile/page.js:100-107 | Each owned company appears as often as it is stored, and every other account not at all. |
| `Profile.ExactCompanyAgrees` | app/dashboard/client/profile/page.js:84-96 | A record whose `type` is exactly "company" has client type "company", a rendered owner card, and an `ownerResident` state. |
| `Profile.OwnerResidentMismatch` | app/dashboard/client/profile/page.js:84-96 | When the `ownerResident` state and the rendered owner card disagree, either a non-empty `type` other than "company" hides `accountType == "company"`, or the deciding field is "company" in another letter case. |
| `Profile.MixedCaseCompanyHasNoOwnerResident` | app/dashboard/client/profile/page.js:84-96 | `type: "Company"` gets client type "company" and a rendered owner card, but no `ownerResident` state. |
| `Profile.ShadowedCompanyHasOwnerResident` | app/dashboard/client/profile/page.js:84-96 | `type: "resident"` with `accountType: "company"` gets client type "resident" and an `ownerResident` state, but no rendered owner card. |
| `Profile.MixedCaseResidentHasNoCompanies` | app/dashboard/client/profile/page.js:99 | `type: "Resident"` gets client type "resident", but its companies are never looked up. |
| `Catalog.Partition` | app/dashboard/client/profile/page.js:115-128 | The single pass that skips withdrawn services and pushes each other service onto the bucket its category names gives exactly the four buckets, each defined independently as a filter of the catalog. |
| `Catalog.PartitionPlacement` | app/dashboard/client/profile/page.js:121-127 | A service is in a bucket if and only if it is in the catalog, is not withdrawn (`active` is not exactly false), and has that bucket's category. It is in some bucket if and only if its category is one of the four known ones. |
| `Catalog.BucketMultiplicity` | app/dashboard/client/profile/page.js:121-127 | A service occurs in its bucket exactly as often as in the catalog, and in every other bucket not at all. |
| `Catalog.PartitionKeepsOrder` | app/dashboard/client/profile/page.js:121-127 | Each bucket keeps catalog order: partitioning two halves and concatenating bucket by bucket gives the partition of the whole. |
| `Catalog.DisplayedEligibility` | app/dashboard/client/profile/page.js:264-275 | A service is shown if and only if it is a listed catalog entry whose category is visible to the client type: resident and other for residents; company, resident and other for companies; nonresident and other for non-residents; nothing for any other type. |
| `Catalog.DisplayedMultiplicity` | app/dashboard/client/profile/page.js:264-275 | A shown service appears exactly as often as in the catalog, so the buckets shown never overlap. |
| `Catalog.UnknownTypeSeesNothing` | app/dashboard/client/profile/page.js:264-275 | A client type other than the three known ones is shown no services. |
| `Catalog.MatchesSearchMeaning` | app/dashboard/client/profile/page.js:183-187 | A service matches if and only if the trimmed, lower-cased query occurs at some offset in the lower-cased name. The name is `name` in Arabic, and otherwise `name_en`, falling back to `name`. |
| `Catalog.BlankQueryMatchesAll` | app/dashboard/client/profile/page.js:183-187 | An empty or all-whitespace query matches every service. |
| `Catalog.TrimLower` | app/dashboard/client/profile/page.js:186 | Trimming and lower-casing commute. |
| `Catalog.SearchIgnoresQueryCase` | app/dashboard/client/profile/page.js:186 | Lower-casing the query first does not change which services match. |
| `Catalog.SearchIgnoresNameCase` | app/dashboard/client/profile/page.js:184-186 | Lower-casing both `name` and `name_en` first does not change whether a service matches, in either language, including the English fallback to `name`. |
| `Catalog.PaddedQueryMatchesAsBare` | app/dashboard/client/profile/page.js:186 | A query with whitespace around it matches exactly the services the bare query matches. |
| `Text.Trim` | app/dashboard/client/profile/page.js:186 | `trim` gives the slice left after removing leading and trailing JavaScript whitespace. Its ends are not whitespace, and it is empty if and only if the input is all whitespace. |
| `Text.TrimPadded` | app/dashboard/client/profile/page.js:186 | Trimming removes whitespace padding and keeps the word inside it intact. |
| `Text.ContainsOccurs` | app/dashboard/client/profile/page.js:186 | The left-to-right scan used for `includes` finds the pattern if and only if it occurs at some offset. |
| `Text.LexTransitive` | app/dashboard/client/profile/page.js:146 | The comparison used for `localeCompare` is transitive. With `LexTotal` and `LexAntisymmetric` it is a total order, so the timestamp sort is well defined. |
| `Text.DecimalRoundTrip` | app/dashboard/client/profile/page.js:43 | Reading back the decimal digits a number renders to gives the number. |
| `Ledger.NewNotification` | app/dashboard/client/profile/page.js:41-50 | A created notification targets the user, carries the title and body, has type "wallet" unless another is given, is unread (`isRead` false), has id "notif-" + millis + "-" + salt, and has the stamp's time. |
| `Ledger.NotificationIdInjective` | app/dashboard/client/profile/page.js:43 | Distinct (millis, salt) pairs give distinct notification ids. |
| `Ledger.PutKeepsWellKeyed` | app/dashboard/client/profile/page.js:51 | Storing a record under its own id keeps every record under its own id, and adds exactly that id. |
| `Ledger.MarkRead` | app/dashboard/client/profile/page.js:193-194 | Marking read keeps the set of ids and changes no field but `isRead`. Only the record under the given id can change, and only to read. A missing id changes nothing. |
| `Ledger.MarkReadIdempotent` | app/dashboard/client/profile/page.js:193-194 | Marking the same notification twice is marking it once. |
| `Ledger.MarkReadMonotone` | app/dashboard/client/profile/page.js:193-194 | No mark-read turns a read notification back into an unread one. |
| `Ledger.UnreadAfterMarkRead` | app/dashboard/client/profile/page.js:193-194 | Marking an id read lowers the unread count by the number of unread records with that id. |
| `Ledger.BadgeIffUnread` | app/dashboard/client/profile/page.js:322-324 | The badge (`some(n => !n.isRead)`) is shown if and only if the unread count (`filter(n => !n.isRead).length`) is positive. |
| `Ledger.SortByTime` | app/dashboard/client/profile/page.js:146 | The sorted list is a permutation of the fetched list. |
| `Ledger.SortByTimeNewestFirst` | app/dashboard/client/profile/page.js:146 | The sorted list is in descending timestamp order, with a missing timestamp read as "". |
| `Ledger.MissingTimestampsLast` | app/dashboard/client/profile/page.js:146 | Every record after one without a timestamp also has none, so records without a timestamp come last. |
| `Ledger.UnreadCountIgnoresOrder` | app/dashboard/client/profile/page.js:146 | Sorting does not change the unread count. |
| `Ledger.SortMarkRead` | app/dashboard/client/profile/page.js:146 | Sorting and marking read commute, so marking never moves a record in the list. |
| `Ledger.ClientNotificationsShape` | app/dashboard/client/profile/page.js:139-147 | The list shown is newest first and holds only the user's notifications. |
| `Ledger.ClientNotificationsComplete` | app/dashboard/client/profile/page.js:139-147 | Every stored notification whose target is the user is in the list shown. |
| `Ledger.DocumentsOnce` | app/dashboard/client/profile/page.js:139-145 | When every record is stored under its own id, the query's documents hold each stored record exactly once and no other record. |
| `Ledger.ClientNotificationsOnce` | app/dashboard/client/profile/page.js:139-147 | When every record is stored under its own id, the list shown holds each notification stored for the user exactly once, and nothing else. |
| `Ledger.StoredUnreadIsCounted` | app/dashboard/client/profile/page.js:139-147 | An unread notification stored for the user makes the shown unread count positive. |
| `Ledger.MarkReadThenReload` | app/dashboard/client/profile/page.js:193-195 | When every record is stored under its own id: after marking an id read and reloading, the list is the same list in the same order, with only the records of that id now read. |
| `Wallet.Bonus` | app/dashboard/client/profile/page.js:211-215 | The bonus is positive if and only if the amount is 100, 500, 1000 or 5000, and then it is half the amount (50, 250, 500, 2500). Every other amount gives 0. |
| `Wallet.TopUp` | app/dashboard/client/profile/page.js:198-243 | A failed payment, no loaded client, or a client without a usable id writes nothing. On success the wallet write of the loaded balance plus the amount comes first, followed by an unread "wallet" notification for the client. The coin write of the loaded coins plus the bonus and a second notification follow if and only if the bonus is positive. |
| `Wallet.TopUpNotificationCount` | app/dashboard/client/profile/page.js:217-235 | A successful top-up creates two notifications for a tier amount and one otherwise. A failed or impossible one creates none. |
| `Wallet.Credited` | app/dashboard/client/profile/page.js:217-227 | The credited document has the loaded wallet plus the amount and, for a tier amount, the loaded coins plus the bonus. Every other field is as stored. |
| `Wallet.TopUpSteps` | app/dashboard/client/profile/page.js:217-235 | Played against a store that holds the client's document, the writes of a successful top-up are accepted one after the other, in order. |
| `Wallet.TopUpCredits` | app/dashboard/client/profile/page.js:217-235 | After a successful top-up, only the client's document changes, to the credited balances. The notification store gains the first stamp's id and, for a tier amount, the second's. Each of these holds an unread notification for the client, and every other notification is unchanged. |
| `Wallet.ChargedUsers` | app/dashboard/client/profile/page.js:220-227 | The user documents after the writes: only the client's, with the credited balances. |
| `Wallet.ChargedNotifications` | app/dashboard/client/profile/page.js:221-234 | The notification documents after the writes: one unread record for the client under each stamp's id, and every other record as before. |
| `Wallet.DeclinedTopUpChangesNothing` | app/dashboard/client/profile/page.js:239-241 | A declined payment leaves the store as it was. |
| `Wallet.MissingDocumentChangesNothing` | app/dashboard/client/profile/page.js:220 | When the client's document no longer exists, the first write is refused and nothing changes. |
| `Wallet.FreshTopUpCreditsOnce` | app/dashboard/client/profile/page.js:217-235 | From an up-to-date record whose `userId` is the id it is stored under, and two fresh, distinct stamps, the wallet grows by exactly the amount and the coins by exactly the bonus. The notification store grows by two for a tier amount and by one otherwise. |
| `Wallet.StaleRecordLosesFirstCredit` | app/dashboard/client/profile/page.js:217-220 | Two top-ups computed from the same loaded record, with no reload between them, leave the wallet at the loaded balance plus the second amount only. |
| `Wallet.ChargeHundredFromEmpty` | app/dashboard/client/profile/page.js:211-227 | Charging 100 to an empty wallet writes a wallet of 100 and 50 coins, with two notifications. |
| `Wallet.ChargeOffTierAmount` | app/dashboard/client/profile/page.js:211-226 | Charging any amount outside the tiers (a bonus of 0) credits the wallet by that amount only, leaves the coins as stored, and adds one notification. |
| `Dashboard.LoadView` | app/dashboard/client/profile/page.js:80-275 | A missing user document gives the "not found" view, and a present one gives a ready view. A ready view holds the record's client type, its related companies, the catalog's buckets and the services those buckets show for that client type, and an unread count and badge computed from the notifications it shows. The `ownerResident` state exists if and only if the record is stored as a company, the owner card is rendered if and only if the client type is "company", and the badge shows if and only if the unread count is positive. Its notifications are newest first and all addressed to the client, and every notification stored for the client is among them; when every record is stored under its own id, each appears exactly once. Every service shown is a listed catalog entry. |
| `Dashboard.TopUpThenReloadShowsBadge` | app/dashboard/client/profile/page.js:217-236 | For a client whose `userId` is the id the page was loaded with, after a successful top-up and the reload it triggers, whose query lists every stored notification, the client's view is ready and shows the badge with a positive unread count. |

## Left out

- Rendering is not modelled, apart from whether the owner card appears and
  what it holds (`Profile.RenderedOwnerCard`): the JSX, the choice of the
  non-resident card (line 485, an exact-case test of `type`), the loading
  spinner, the menus, the click-outside listener (lines 154-163), the
  sidebar, and the chat and WhatsApp widgets.
- The language toggle (lines 165-167) is not modelled. The language is a
  parameter.
- `getDayGreeting` (lines 26-37) reads the clock (line 27) and produces
  display text only. `getWelcome` (lines 38-40) builds display text from
  the name and the language only.
- `handleLogout` (lines 169-181) deletes chat rooms and signs out. It is
  store and authentication I/O.
- The orders query (lines 130-137) has no local logic; the store does the
  ordering.
- The PayTabs gateway call (lines 200-209) is a foreign object. Its verdict
  is the `GatewayOutcome` input, and the order id and customer fields it
  sends are not modelled.
- `Date.now`, `Math.random` and `toISOString` (lines 43 and 49) are not
  modelled. They are the fields of the `Stamp` parameter, and the random
  suffix is any natural number.
- The `alert` calls (lines 237 and 240) and the `reloadClient` toggle
  (lines 191, 195 and 236) are not modelled. A reload is a fresh `LoadView`.
- `toLocaleString` on timestamps (line 348) is display formatting only.
- The order in which the store returns documents is an input (`order`,
  `accounts`, `catalog`). It is not derived from the store. `order` is
  required to list every stored notification exactly once; the notification
  query's `targetId` filter is applied to that listing.
- Store reads that fail and leave the page loading are not modelled.
- A write that fails partway through a top-up is not modelled. The only
  refused write is an update of a document that does not exist, and it ends
  the sequence.
- `Text.Lower` is ASCII lower-casing. `toLowerCase` also folds non-ASCII
  letters.
- `Text.LexLe` compares characters by code point. `localeCompare` uses
  locale collation; it agrees on the ISO-8601 timestamps the page stores.
- Strings are sequences of code points, not UTF-16 code units.
- `Profile.RelatedCompanies`: an absent `name` matches no owner here. The
  store refuses an `in` filter holding `undefined`, so the page's query
  would throw.
- Fields are modelled only with the types the page expects: a string where
  a string is read, a whole number for balances. A document holding another
  JavaScript type in these fields is not modelled.
- A stored service without a `name` field is not modelled: `Service.name`
  is always a string. On such a document the page's search (lines 184-186)
  calls `toLowerCase` on `undefined` and throws.
- Amounts are whole numbers. A fractional amount is not modelled.
- Balances are unbounded integers. JavaScript numbers are doubles, so the
  sums `(client.walletBalance || 0) + amount` and `(client.coins || 0) +
  bonus` (lines 217-218) round above 2^53; balances beyond 2^53 are not
  modelled.
- The page reads `users/{userId}` with the id from the URL (line 80) but
  writes to `users/{client.userId}` and addresses notifications to
  `client.userId` (lines 220-222 and 227-229). `Wallet.TopUp` models those
  writes as written. `Wallet.FreshTopUpCreditsOnce` and
  `Dashboard.TopUpThenReloadShowsBadge` assume the stored `userId` equals
  the id the document is stored under; when they differ, the reloaded page
  shows neither the credit nor the badge, and no lemma states that case.
- `Ledger.SortByTime`: the sort is stable, like JavaScript's, but stability
  is not stated as a property.
- A notification id collision overwrites the earlier record. The model
  shows this (`Ledger.Put`) but does not rule it out.
- The email, `unreadMessages` and `messages` fields of an account are not
  modelled. Nothing in this logic reads them.

=== FILE: catalog.dfy ===
/**
 * The service catalog on the client profile page: the partition of every
 * stored service into four category buckets, the list shown for a client
 * type, and the free-text search over service names.
 */
module Catalog {
  import opened JsValues
  import Text
  import Seqs

  /** A stored service document; `nameEn` is the source's `name_en`. */
  datatype Service = Service(
    id: string,
    name: string,
    nameEn: Option<string>,
    category: Option<string>,
    active: Option<bool>)

  /** The four buckets of the catalog, each in catalog order. */
  datatype Buckets = Buckets(
    resident: seq<Service>,
    nonresident: seq<Service>,
    company: seq<Service>,
    other: seq<Service>)

  /** A service is withdrawn only when `active` is exactly `false`; a missing flag counts as active. */
  predicate Listed(s: Service) {
    s.active != Some(false)
  }

  predicate KnownCategory(c: string) {
    c == "resident" || c == "nonresident" || c == "company" || c == "other"
  }

  /** The services that land in the bucket of category `c`. */
  predicate InBucket(s: Service, c: string) {
    Listed(s) && s.category == Some(c)
  }

  /** `InBucket` for a fixed category, as a filter test. */
  function InCategory(c: string): Service -> bool {
    (s: Service) => InBucket(s, c)
  }

  /** The bucket of category `c`: listed services of that category, in catalog order. */
  function Bucket(catalog: seq<Service>, c: string): seq<Service> {
    Seqs.Filter(catalog, InCategory(c))
  }

  /** The four buckets, each defined on its own. */
  function ServicesByType(catalog: seq<Service>): Buckets {
    Buckets(Bucket(catalog, "resident"), Bucket(catalog, "nonresident"),
            Bucket(catalog, "company"), Bucket(catalog, "other"))
  }

  /**
   * The partition as the page computes it: one pass over the catalog that
   * skips withdrawn services and pushes each other service onto the bucket
   * its category names, dropping unknown categories. It agrees with the
   * bucket-by-bucket definition.
   */
  method Partition(catalog: seq<Service>) returns (b: Buckets)
    ensures b == ServicesByType(catalog)
  {
    b := Buckets([], [], [], []);
    var i := 0;
    while i < |catalog|
      invariant 0 <= i <= |catalog|
      invariant b.resident == Bucket(catalog[..i], "resident")
      invariant b.nonresident == Bucket(catalog[..i], "nonresident")
      invariant b.company == Bucket(catalog[..i], "company")
      invariant b.other == Bucket(catalog[..i], "other")
    {
      var srv := catalog[i];
      assert catalog[..i + 1] == catalog[..i] + [srv];
      BucketSnoc(catalog[..i], srv, "resident");
      BucketSnoc(catalog[..i], srv, "nonresident");
      BucketSnoc(catalog[..i], srv, "company");
      BucketSnoc(catalog[..i], srv, "other");
      if srv.active == Some(false) {
      } else if srv.category == Some("resident") {
        b := b.(resident := b.resident + [srv]);
      } else if srv.category == Some("nonresident") {
        b := b.(nonresident := b.nonresident + [srv]);
      } else if srv.category == Some("company") {
        b := b.(company := b.company + [srv]);
      } else if srv.category == Some("other") {
        b := b.(other := b.other + [srv]);
      }
      i := i + 1;
    }
    assert catalog[..i] == catalog;
  }

  lemma BucketSnoc(catalog: seq<Service>, srv: Service, c: string)
    ensures Bucket(catalog + [srv], c) == Bucket(catalog, c) + (if InBucket(srv, c) then [srv] else [])
  {
    Seqs.FilterSnoc(catalog, srv, InCategory(c));
  }

  /**
   * Where a catalog entry lands: in the bucket its category names when it is
   * listed and its category is known, and in no bucket otherwise.
   */
  lemma PartitionPlacement(catalog: seq<Service>, s: Service)
    ensures var b := ServicesByType(catalog);
      && (s in b.resident <==> s in catalog && InBucket(s, "resident"))
      && (s in b.nonresident <==> s in catalog && InBucket(s, "nonresident"))
      && (s in b.company <==> s in catalog && InBucket(s, "company"))
      && (s in b.other <==> s in catalog && InBucket(s, "other"))
    ensures var b := ServicesByType(catalog);
      (s in b.resident || s in b.nonresident || s in b.company || s in b.other) <==>
      s in catalog && Listed(s) && s.category.Some? && KnownCategory(s.category.value)
  {
  }

  /** A listed service of category `c` occurs in bucket `c` exactly as often as in the catalog. */
  lemma BucketMultiplicity(catalog: seq<Service>, c: string, s: Service)
    ensures multiset(Bucket(catalog, c))[s] == if InBucket(s, c) then multiset(catalog)[s] else 0
  {
    Seqs.FilterMultiplicity(catalog, InCategory(c), s);
  }

  /** Each bucket keeps catalog order: partitioning two halves and concatenating is partitioning the whole. */
  lemma PartitionKeepsOrder(a: seq<Service>, b: seq<Service>)
    ensures var whole := ServicesByType(a + b);
      var left := ServicesByType(a);
      var right := ServicesByType(b);
      && whole.resident == left.resident + right.resident
      && whole.nonresident == left.nonresident + right.nonresident
      && whole.company == left.company + right.company
      && whole.other == left.other + right.other
  {
    Seqs.FilterConcat(a, b, InCategory("resident"));
    Seqs.FilterConcat(a, b, InCategory("nonresident"));
    Seqs.FilterConcat(a, b, InCategory("company"));
    Seqs.FilterConcat(a, b, InCategory("other"));
  }

  // ---------------------------------------------------------------------------
  // Displayed services

  /** The services shown for a client type, bucket by bucket in a fixed order. */
  function Displayed(b: Buckets, clientType: string): seq<Service> {
    if clientType == "resident" then b.resident + b.other
    else if clientType == "company" then b.company + b.resident + b.other
    else if clientType == "nonresident" then b.nonresident + b.other
    else []
  }

  /** Which categories a client type may see, as a table. */
  function VisibleCategories(clientType: string): set<string> {
    match clientType
    case "resident" => {"resident", "other"}
    case "company" => {"company", "resident", "other"}
    case "nonresident" => {"nonresident", "other"}
    case _ => {}
  }

  /** A service is shown exactly when it is a listed catalog entry of a category visible to the client type. */
  lemma DisplayedEligibility(catalog: seq<Service>, clientType: string, s: Service)
    ensures s in Displayed(ServicesByType(catalog), clientType) <==>
      s in catalog && Listed(s) && s.category.Some? && s.category.value in VisibleCategories(clientType)
  {
  }

  /** Everything shown is a listed catalog entry. */
  lemma DisplayedFromCatalog(catalog: seq<Service>, clientType: string)
    ensures forall s :: s in Displayed(ServicesByType(catalog), clientType) ==> s in catalog && Listed(s)
  {
    forall s | s in Displayed(ServicesByType(catalog), clientType)
      ensures s in catalog && Listed(s)
    {
      DisplayedEligibility(catalog, clientType, s);
    }
  }

  /** A shown service is shown as often as it is in the catalog: the visible buckets never overlap. */
  lemma DisplayedMultiplicity(catalog: seq<Service>, clientType: string, s: Service)
    ensures multiset(Displayed(ServicesByType(catalog), clientType))[s] ==
      if Listed(s) && s.category.Some? && s.category.value in VisibleCategories(clientType)
      then multiset(catalog)[s] else 0
  {
    if clientType == "resident" {
      DisplayedTwoBuckets(catalog, clientType, "resident", s);
    } else if clientType == "company" {
      DisplayedCompany(catalog, s);
    } else if clientType == "nonresident" {
      DisplayedTwoBuckets(catalog, clientType, "nonresident", s);
    }
  }

  lemma DisplayedTwoBuckets(catalog: seq<Service>, clientType: string, own: string, s: Service)
    requires clientType == own && (own == "resident" || own == "nonresident")
    ensures multiset(Displayed(ServicesByType(catalog), clientType))[s] ==
      if Listed(s) && s.category.Some? && s.category.value in VisibleCategories(clientType)
      then multiset(catalog)[s] else 0
  {
    var b := ServicesByType(catalog);
    BucketMultiplicity(catalog, own, s);
    BucketMultiplicity(catalog, "other", s);
    assert Displayed(b, clientType) == Bucket(catalog, own) + Bucket(catalog, "other");
    assert multiset(Displayed(b, clientType)) == multiset(Bucket(catalog, own)) + multiset(Bucket(catalog, "other"));
    assert VisibleCategories(clientType) == {own, "other"};
  }

  lemma DisplayedCompany(catalog: seq<Service>, s: Service)
    ensures multiset(Displayed(ServicesByType(catalog), "company"))[s] ==
      if Listed(s) && s.category.Some? && s.category.value in VisibleCategories("company")
      then multiset(catalog)[s] else 0
  {
    var b := ServicesByType(catalog);
    BucketMultiplicity(catalog, "company", s);
    BucketMultiplicity(catalog, "resident", s);
    BucketMultiplicity(catalog, "other", s);
    assert multiset(Displayed(b, "company"))
      == multiset(b.company) + multiset(b.resident) + multiset(b.other);
    assert VisibleCategories("company") == {"company", "resident", "other"};
  }

  /** A client type outside the three known ones sees nothing. */
  lemma UnknownTypeSeesNothing(b: Buckets, clientType: string)
    requires clientType != "resident" && clientType != "company" && clientType != "nonresident"
    ensures Displayed(b, clientType) == []
  {
  }

  // ---------------------------------------------------------------------------
  // Search

  /** The name searched: Arabic `name`, otherwise `name_en` falling back to `name` when empty or missing. */
  function DisplayName(s: Service, lang: string): string {
    if lang == "ar" then s.name
    else if Truthy(s.nameEn) then s.nameEn.value
    else s.name
  }

  /** `filterService`: the lower-cased name includes the trimmed, lower-cased query. */
  predicate MatchesSearch(s: Service, lang: string, query: string) {
    Text.Contains(Text.Lower(DisplayName(s, lang)), Text.Lower(Text.Trim(query)))
  }

  /** A service matches exactly when the normalised query occurs in the normalised name. */
  lemma MatchesSearchMeaning(s: Service, lang: string, query: string)
    ensures MatchesSearch(s, lang, query) <==>
      Text.OccursIn(Text.Lower(Text.Trim(query)), Text.Lower(DisplayName(s, lang)))
  {
    Text.ContainsOccurs(Text.Lower(DisplayName(s, lang)), Text.Lower(Text.Trim(query)));
  }

  /** A blank or whitespace-only query matches every service. */
  lemma BlankQueryMatchesAll(s: Service, lang: string, query: string)
    requires Text.AllWhitespace(query)
    ensures MatchesSearch(s, lang, query)
  {
    Text.ContainsEmpty(Text.Lower(DisplayName(s, lang)));
  }

  /** Lower-casing never creates or removes whitespace, so trimming commutes with it. */
  lemma {:induction false} LeadingWhitespaceLower(q: string)
    ensures Text.LeadingWhitespace(Text.Lower(q)) == Text.LeadingWhitespace(q)
  {
    if |q| > 0 {
      assert Text.Lower(q)[1..] == Text.Lower(q[1..]);
      LeadingWhitespaceLower(q[1..]);
    }
  }

  lemma {:induction false} TrailingStartLower(q: string)
    ensures Text.TrailingStart(Text.Lower(q)) == Text.TrailingStart(q)
  {
    if |q| > 0 {
      assert Text.Lower(q)[..|q| - 1] == Text.Lower(q[..|q| - 1]);
      TrailingStartLower(q[..|q| - 1]);
    }
  }

  lemma TrimLower(q: string)
    ensures Text.Trim(Text.Lower(q)) == Text.Lower(Text.Trim(q))
  {
    LeadingWhitespaceLower(q);
    TrailingStartLower(q);
    var i := Text.LeadingWhitespace(q);
    var j := Text.TrailingStart(q);
    if i < |q| {
      assert Text.Trim(q) == q[i..j];
      Text.LowerSlice(q, i, j);
    }
  }

  /** The search ignores the case of the query. */
  lemma SearchIgnoresQueryCase(s: Service, lang: string, query: string)
    ensures MatchesSearch(s, lang, Text.Lower(query)) == MatchesSearch(s, lang, query)
  {
    TrimLower(query);
    Text.LowerIdempotent(Text.Trim(query));
  }

  /** The service with both of its names lower-cased. */
  function LowerNames(s: Service): (t: Service)
    ensures t.name == Text.Lower(s.name)
    ensures t.nameEn.Some? <==> s.nameEn.Some?
    ensures s.nameEn.Some? ==> t.nameEn.value == Text.Lower(s.nameEn.value)
    ensures t.(name := s.name, nameEn := s.nameEn) == s
  {
    s.(name := Text.Lower(s.name),
       nameEn := if s.nameEn.Some? then Some(Text.Lower(s.nameEn.value)) else None)
  }

  /** The search ignores the case of the name searched, in either language. */
  lemma SearchIgnoresNameCase(s: Service, lang: string, query: string)
    ensures MatchesSearch(LowerNames(s), lang, query) == MatchesSearch(s, lang, query)
  {
    Text.LowerIdempotent(s.name);
    if s.nameEn.Some? {
      Text.LowerIdempotent(s.nameEn.value);
    }
  }

  /** Whitespace around a query changes nothing: the padded query matches exactly what the bare one does. */
  lemma PaddedQueryMatchesAsBare(s: Service, lang: string, pad1: string, core: string, pad2: string)
    requires Text.AllWhitespace(pad1) && Text.AllWhitespace(pad2)
    requires |core| > 0 && !Text.IsJsWhitespace(core[0]) && !Text.IsJsWhitespace(core[|core| - 1])
    ensures MatchesSearch(s, lang, pad1 + core + pad2) <==> MatchesSearch(s, lang, core)
  {
    Text.TrimPadded(pad1, core, pad2);
    Text.TrimPadded("", core, "");
    assert "" + core + "" == core;
  }
}

=== FILE: dashboard.dfy ===
/**
 * The view the client profile page builds from one load of the store: the
 * client type, the owner card and the `ownerResident` state, related
 * companies, service buckets and the services shown, and the newest-first
 * notification list with its badge.
 * A missing user document yields the "not found" view instead.
 */
module Dashboard {
  import opened JsValues
  import opened Profile
  import opened Catalog
  import opened Ledger
  import Wallet

  datatype View =
    | NotFound
    | Ready(
        clientType: string,
        ownerResident: Option<OwnerIdentity>,
        ownerCard: Option<OwnerIdentity>,
        companies: seq<Account>,
        services: Buckets,
        displayed: seq<Service>,
        notifications: seq<Notification>,
        unread: nat,
        badge: bool)

  /**
   * One load: `user` is the user document read under `userId` (absent when
   * the document does not exist), `accounts` the user documents in store
   * order, `catalog` the service documents, and `notes`/`order` the
   * notification documents and the listing of all of them, each once, in the
   * order the store returns them.
   */
  function LoadView(userId: string, user: Option<Account>, accounts: seq<Account>, catalog: seq<Service>,
                    notes: NotificationStore, order: seq<string>): (v: View)
    requires EnumeratesStore(notes, order)
    ensures v.NotFound? <==> user.None?
    ensures v.Ready? ==> (v.ownerResident.Some? <==> StoredAsCompany(user.value))
    ensures v.Ready? ==> (v.ownerCard.Some? <==> v.clientType == "company")
    ensures v.Ready? ==> v.clientType == ClientType(user.value)
    ensures v.Ready? ==> v.companies == RelatedCompanies(user, accounts)
    ensures v.Ready? ==> v.services == ServicesByType(catalog) && v.displayed == Displayed(v.services, v.clientType)
    ensures v.Ready? ==> v.unread == UnreadCount(v.notifications) && (v.badge <==> ShowBadge(v.notifications))
    ensures v.Ready? ==> (v.badge <==> v.unread > 0)
    ensures v.Ready? ==> NewestFirst(v.notifications)
    ensures v.Ready? ==> forall n :: n in v.notifications ==> n.targetId == userId
    ensures v.Ready? ==> forall id :: id in notes && notes[id].targetId == userId ==> notes[id] in v.notifications
    ensures v.Ready? && WellKeyed(notes) ==> forall n :: (multiset(v.notifications)[n] ==
                                             if n.targetId == userId && n.notificationId in notes && notes[n.notificationId] == n then 1 else 0)
    ensures v.Ready? ==> forall s :: s in v.displayed ==> s in catalog && Listed(s)
  {
    if user.None? then NotFound
    else
      var a := user.value;
      var ns := ClientNotifications(notes, order, userId);
      var services := ServicesByType(catalog);
      ClientNotificationsShape(notes, order, userId);
      ClientNotificationsComplete(notes, order, userId);
      assert WellKeyed(notes) ==> forall n :: (multiset(ns)[n] ==
                                  if n.targetId == userId && n.notificationId in notes && notes[n.notificationId] == n then 1 else 0) by {
        if WellKeyed(notes) {
          ClientNotificationsOnce(notes, order, userId);
        }
      }
      BadgeIffUnread(ns);
      DisplayedFromCatalog(catalog, ClientType(a));
      Ready(ClientType(a), OwnerResident(a), RenderedOwnerCard(a), RelatedCompanies(user, accounts), services,
            Displayed(services, ClientType(a)), ns, UnreadCount(ns), ShowBadge(ns))
  }

  /**
   * After a successful top-up and the reload it triggers, the client's badge
   * is shown: the wallet notification is stored unread under the client's id.
   */
  lemma TopUpThenReloadShowsBadge(st: Wallet.Store, u: string, amount: int, lang: string,
                                  first: Stamp, second: Stamp,
                                  accounts: seq<Account>, catalog: seq<Service>, order: seq<string>)
    requires u != "" && u in st.users && st.users[u].userId == Some(u)
    requires var after := Wallet.ApplyWrites(st, Wallet.TopUp(Some(st.users[u]), amount, lang, Wallet.Success, first, second));
      EnumeratesStore(after.notifications, order)
    ensures var after := Wallet.ApplyWrites(st, Wallet.TopUp(Some(st.users[u]), amount, lang, Wallet.Success, first, second));
      var reloaded := if u in after.users then Some(after.users[u]) else None;
      var v := LoadView(u, reloaded, accounts, catalog, after.notifications, order);
      v.Ready? && v.badge && v.unread > 0
  {
    var after := Wallet.ApplyWrites(st, Wallet.TopUp(Some(st.users[u]), amount, lang, Wallet.Success, first, second));
    Wallet.TopUpCredits(st, Some(st.users[u]), amount, lang, first, second);
    StoredUnreadIsCounted(after.notifications, order, u, NotificationId(first.millis, first.salt));
    BadgeIffUnread(ClientNotifications(after.notifications, order, u));
  }
}

=== FILE: js_values.dfy ===
/**
 * Values as the dashboard page reads them from stored documents: any field
 * may be missing, and the page combines fields with JavaScript's `||`, which
 * skips over "falsy" values (a missing field, the empty string, the number 0).
 */
module JsValues {

  /** A document field that may be absent. */
  datatype Option<+T> = None | Some(value: T) {
    function GetOr(default: T): T {
      match this
      case Some(v) => v
      case None => default
    }
  }

  /** JavaScript truthiness of an optional string field: present and non-empty. */
  predicate Truthy(o: Option<string>) {
    o.Some? && o.value != ""
  }

  /** `a || b || ""` on two optional string fields. */
  function FirstTruthy(a: Option<string>, b: Option<string>): string {
    if Truthy(a) then a.value
    else if Truthy(b) then b.value
    else ""
  }

  /** `x || 0` on an optional number field: absent reads as 0 (and 0 stays 0). */
  function OrZero(o: Option<int>): int {
    o.GetOr(0)
  }
}

=== FILE: ledger.dfy ===
/**
 * The notification ledger of the client profile page: creating notification
 * records, marking one as read, the newest-first list the page shows and its
 * unread badge.
 *
 * The notification store is a map from document id to record. The page
 * fetches the client's notifications with a store query; the order in which
 * the store returns documents is a parameter (`order`, the document ids in
 * store order). The clock and the random draw that make up a new
 * notification's id and timestamp are parameters too (`Stamp`).
 */
module Ledger {
  import opened JsValues
  import Text
  import Seqs

  /** A notification record; the source's `type` field is `typeTag`. */
  datatype Notification = Notification(
    notificationId: string,
    targetId: string,
    title: string,
    body: string,
    isRead: Option<bool>,
    typeTag: string,
    timestamp: Option<string>)

  /** The epoch milliseconds, random draw and ISO-8601 time used for one new notification. */
  datatype Stamp = Stamp(millis: nat, salt: nat, isoTime: string)

  /** The document store of notifications, by document id. */
  type NotificationStore = map<string, Notification>

  // ---------------------------------------------------------------------------
  // Creation

  /** `notif-<millis>-<salt>`. */
  function NotificationId(millis: nat, salt: nat): string {
    "notif-" + Text.NatToDecimal(millis) + "-" + Text.NatToDecimal(salt)
  }

  lemma DashSplitsDigits(a: string, b: string, c: string, d: string)
    requires forall i :: 0 <= i < |c| ==> Text.IsDigit(c[i])
    requires |a| < |c|
    ensures a + "-" + b != c + "-" + d
  {
    assert (a + "-" + b)[|a|] == '-';
    assert (c + "-" + d)[|a|] == c[|a|];
  }

  /** Two digit strings joined by a dash can be split back apart. */
  lemma SplitAtDash(a: string, b: string, c: string, d: string)
    requires forall i :: 0 <= i < |a| ==> Text.IsDigit(a[i])
    requires forall i :: 0 <= i < |c| ==> Text.IsDigit(c[i])
    requires a + "-" + b == c + "-" + d
    ensures a == c && b == d
  {
    var x := a + "-" + b;
    var y := c + "-" + d;
    if |a| < |c| {
      DashSplitsDigits(a, b, c, d);
      assert false;
    } else if |c| < |a| {
      DashSplitsDigits(c, d, a, b);
      assert false;
    }
    assert a == x[..|a|] && c == y[..|c|];
    assert b == x[|a| + 1..] && d == y[|c| + 1..];
  }

  /** Notification ids collide only when both the milliseconds and the random draw coincide. */
  lemma NotificationIdInjective(m1: nat, s1: nat, m2: nat, s2: nat)
    requires NotificationId(m1, s1) == NotificationId(m2, s2)
    ensures m1 == m2 && s1 == s2
  {
    var a, b := Text.NatToDecimal(m1), Text.NatToDecimal(s1);
    var c, d := Text.NatToDecimal(m2), Text.NatToDecimal(s2);
    assert NotificationId(m1, s1) == "notif-" + (a + "-" + b);
    assert NotificationId(m2, s2) == "notif-" + (c + "-" + d);
    assert a + "-" + b == NotificationId(m1, s1)[6..];
    assert c + "-" + d == NotificationId(m2, s2)[6..];
    SplitAtDash(a, b, c, d);
    Text.DecimalInjective(m1, m2);
    Text.DecimalInjective(s1, s2);
  }

  /** `addNotification`: a new, unread record addressed to the user; the type defaults to "wallet". */
  function NewNotification(stamp: Stamp, userId: string, title: string, body: string,
                           typeTag: string := "wallet"): (n: Notification)
    ensures n.targetId == userId && n.title == title && n.body == body && n.typeTag == typeTag
    ensures n.isRead == Some(false) && IsUnread(n)
    ensures n.notificationId == NotificationId(stamp.millis, stamp.salt)
    ensures n.timestamp == Some(stamp.isoTime)
  {
    Notification(NotificationId(stamp.millis, stamp.salt), userId, title, body,
                 Some(false), typeTag, Some(stamp.isoTime))
  }

  /** `setDoc` under the record's own id: creates, or overwrites a colliding id. */
  function Put(store: NotificationStore, n: Notification): NotificationStore {
    store[n.notificationId := n]
  }

  /** Every record is stored under its own id, as `Put` stores it. */
  predicate WellKeyed(store: NotificationStore) {
    forall k :: k in store ==> store[k].notificationId == k
  }

  lemma PutKeepsWellKeyed(store: NotificationStore, n: Notification)
    requires WellKeyed(store)
    ensures WellKeyed(Put(store, n))
    ensures Put(store, n).Keys == store.Keys + {n.notificationId}
  {
  }

  // ---------------------------------------------------------------------------
  // Read state

  /** `!n.isRead`: a record is unread unless its flag is `true`; a missing flag reads as unread. */
  predicate IsUnread(n: Notification) {
    n.isRead != Some(true)
  }

  /** The badge number: how many notifications are unread. */
  function UnreadCount(ns: seq<Notification>): nat {
    |Seqs.Filter(ns, IsUnread)|
  }

  /** `notifications.some(n => !n.isRead)`: whether the badge is shown. */
  predicate ShowBadge(ns: seq<Notification>) {
    exists i :: 0 <= i < |ns| && IsUnread(ns[i])
  }

  /** The badge is shown exactly when the unread count is positive. */
  lemma BadgeIffUnread(ns: seq<Notification>)
    ensures ShowBadge(ns) <==> UnreadCount(ns) > 0
  {
    var u := Seqs.Filter(ns, IsUnread);
    if ShowBadge(ns) {
      var i :| 0 <= i < |ns| && IsUnread(ns[i]);
      assert ns[i] in u;
    }
    if |u| > 0 {
      assert u[0] in ns;
    }
  }

  /** `markNotifAsRead` on one record: the record with that id gets `isRead: true`. */
  function MarkReadOne(n: Notification, id: string): Notification {
    if n.notificationId == id then n.(isRead := Some(true)) else n
  }

  /**
   * `markNotifAsRead(id)` on the store: the record stored under `id`, if any,
   * becomes read; no record gains or loses any other field, no other record
   * changes, and no record becomes unread. A missing id changes nothing (the
   * store refuses to update a document that does not exist).
   */
  function MarkRead(store: NotificationStore, id: string): (r: NotificationStore)
    ensures r.Keys == store.Keys
    ensures forall k :: k in store ==> r[k] == store[k].(isRead := r[k].isRead)
    ensures forall k :: k in store && r[k].isRead != store[k].isRead ==> k == id && r[k].isRead == Some(true)
    ensures id in store ==> !IsUnread(r[id])
  {
    if id in store then store[id := store[id].(isRead := Some(true))] else store
  }

  /** Marking the same notification twice is marking it once. */
  lemma MarkReadIdempotent(store: NotificationStore, id: string)
    ensures MarkRead(MarkRead(store, id), id) == MarkRead(store, id)
  {
  }

  /** Marking never turns a read notification back into an unread one, for any id. */
  lemma MarkReadMonotone(store: NotificationStore, id: string, k: string)
    requires k in store && !IsUnread(store[k])
    ensures !IsUnread(MarkRead(store, id)[k])
  {
  }

  /** A fetched list after the same id was marked read: only the records with that id change. */
  function MarkReadInList(ns: seq<Notification>, id: string): (r: seq<Notification>)
    ensures |r| == |ns|
    ensures forall i :: 0 <= i < |ns| ==> r[i] == MarkReadOne(ns[i], id)
  {
    if |ns| == 0 then [] else [MarkReadOne(ns[0], id)] + MarkReadInList(ns[1..], id)
  }

  /** Marking one id read lowers the unread count by the number of unread records with that id. */
  lemma {:induction false} UnreadAfterMarkRead(ns: seq<Notification>, id: string)
    ensures UnreadCount(MarkReadInList(ns, id)) + |Seqs.Filter(ns, n => IsUnread(n) && n.notificationId == id)|
      == UnreadCount(ns)
  {
    if |ns| > 0 {
      UnreadAfterMarkRead(ns[1..], id);
      var r := MarkReadInList(ns, id);
      assert r[1..] == MarkReadInList(ns[1..], id);
    }
  }

  // ---------------------------------------------------------------------------
  // Newest first

  /** `n.timestamp || ''`: the sort key, "" when the timestamp is missing. */
  function SortKey(n: Notification): string {
    n.timestamp.GetOr("")
  }

  /** Descending by timestamp: no later record has a greater key than an earlier one. */
  ghost predicate NewestFirst(ns: seq<Notification>) {
    forall i, j :: 0 <= i < j < |ns| ==> Text.LexLe(SortKey(ns[j]), SortKey(ns[i]))
  }

  /**
   * Inserts `x` before the first record whose key is not greater than its own,
   * so that it precedes records of equal key that came after it in the input.
   */
  function InsertByTime(x: Notification, l: seq<Notification>): (r: seq<Notification>)
    ensures multiset(r) == multiset(l) + multiset{x}
  {
    if |l| == 0 || Text.LexLe(SortKey(l[0]), SortKey(x)) then [x] + l
    else
      assert l == [l[0]] + l[1..];
      [l[0]] + InsertByTime(x, l[1..])
  }

  /** The page's sort of the fetched list: a stable sort, newest first. */
  function SortByTime(ns: seq<Notification>): (r: seq<Notification>)
    ensures multiset(r) == multiset(ns)
  {
    if |ns| == 0 then []
    else
      assert ns == [ns[0]] + ns[1..];
      InsertByTime(ns[0], SortByTime(ns[1..]))
  }

  /** Inserting a record no newer than a bound into records no newer than it keeps them all under it. */
  lemma InsertBounded(x: Notification, l: seq<Notification>, top: string)
    requires Text.LexLe(SortKey(x), top)
    requires forall i :: 0 <= i < |l| ==> Text.LexLe(SortKey(l[i]), top)
    ensures forall i :: 0 <= i < |InsertByTime(x, l)| ==> Text.LexLe(SortKey(InsertByTime(x, l)[i]), top)
  {
    var r := InsertByTime(x, l);
    forall i | 0 <= i < |r|
      ensures Text.LexLe(SortKey(r[i]), top)
    {
      assert r[i] in multiset(r);
      if r[i] != x {
        assert r[i] in multiset(l);
        var k :| 0 <= k < |l| && l[k] == r[i];
      }
    }
  }

  lemma {:induction false} InsertKeepsNewestFirst(x: Notification, l: seq<Notification>)
    requires NewestFirst(l)
    ensures NewestFirst(InsertByTime(x, l))
  {
    var r := InsertByTime(x, l);
    if |l| == 0 {
    } else if Text.LexLe(SortKey(l[0]), SortKey(x)) {
      forall i, j | 0 <= i < j < |r|
        ensures Text.LexLe(SortKey(r[j]), SortKey(r[i]))
      {
        if i == 0 && j > 1 {
          Text.LexTransitive(SortKey(l[j - 1]), SortKey(l[0]), SortKey(x));
        }
      }
    } else {
      Text.LexTotal(SortKey(l[0]), SortKey(x));
      var tail := l[1..];
      var rest := InsertByTime(x, tail);
      InsertKeepsNewestFirst(x, tail);
      forall i | 0 <= i < |tail|
        ensures Text.LexLe(SortKey(tail[i]), SortKey(l[0]))
      {
        assert tail[i] == l[i + 1];
      }
      InsertBounded(x, tail, SortKey(l[0]));
      assert r == [l[0]] + rest;
      forall i, j | 0 <= i < j < |r|
        ensures Text.LexLe(SortKey(r[j]), SortKey(r[i]))
      {
        assert r[j] == rest[j - 1];
        if i > 0 {
          assert r[i] == rest[i - 1];
        }
      }
    }
  }

  /** The sorted list is newest first. */
  lemma {:induction false} SortByTimeNewestFirst(ns: seq<Notification>)
    ensures NewestFirst(SortByTime(ns))
  {
    if |ns| > 0 {
      SortByTimeNewestFirst(ns[1..]);
      InsertKeepsNewestFirst(ns[0], SortByTime(ns[1..]));
    }
  }

  /** Records without a timestamp sort last: after one of them come only others like it. */
  lemma MissingTimestampsLast(ns: seq<Notification>)
    ensures var r := SortByTime(ns);
      forall i, j :: 0 <= i < j < |r| && !Truthy(r[i].timestamp) ==> !Truthy(r[j].timestamp)
  {
    var r := SortByTime(ns);
    SortByTimeNewestFirst(ns);
    forall i, j | 0 <= i < j < |r| && !Truthy(r[i].timestamp)
      ensures !Truthy(r[j].timestamp)
    {
      assert SortKey(r[i]) == "";
      Text.EmptyIsLeast(SortKey(r[j]));
    }
  }

  /** Sorting does not change how many notifications are unread. */
  lemma UnreadCountIgnoresOrder(ns: seq<Notification>)
    ensures UnreadCount(SortByTime(ns)) == UnreadCount(ns)
  {
    Seqs.FilterSameMultiset(SortByTime(ns), ns, IsUnread);
  }

  lemma {:induction false} InsertMarkRead(x: Notification, l: seq<Notification>, id: string)
    ensures InsertByTime(MarkReadOne(x, id), MarkReadInList(l, id)) == MarkReadInList(InsertByTime(x, l), id)
  {
    if |l| > 0 {
      var ml := MarkReadInList(l, id);
      assert ml[1..] == MarkReadInList(l[1..], id);
      InsertMarkRead(x, l[1..], id);
      if !Text.LexLe(SortKey(l[0]), SortKey(x)) {
        var r := InsertByTime(x, l);
        assert r == [l[0]] + InsertByTime(x, l[1..]);
        assert MarkReadInList(r, id)[1..] == MarkReadInList(r[1..], id);
      }
    }
  }

  /** Marking read does not move a record: sorting and marking commute. */
  lemma {:induction false} SortMarkRead(ns: seq<Notification>, id: string)
    ensures SortByTime(MarkReadInList(ns, id)) == MarkReadInList(SortByTime(ns), id)
  {
    if |ns| > 0 {
      var m := MarkReadInList(ns, id);
      assert m[1..] == MarkReadInList(ns[1..], id);
      SortMarkRead(ns[1..], id);
      InsertMarkRead(ns[0], SortByTime(ns[1..]), id);
    }
  }

  // ---------------------------------------------------------------------------
  // The client's notification list

  /** Every id in `order` names a stored document. */
  predicate NamesStored(store: NotificationStore, order: seq<string>) {
    forall i :: 0 <= i < |order| ==> order[i] in store
  }

  /** No id is listed twice. */
  predicate NoRepeats(order: seq<string>) {
    forall i, j :: 0 <= i < j < |order| ==> order[i] != order[j]
  }

  /**
   * `order` is a listing of the whole store, as a query's result set is: every
   * stored document appears in it exactly once, and nothing else does.
   */
  predicate EnumeratesStore(store: NotificationStore, order: seq<string>) {
    NamesStored(store, order) && NoRepeats(order) && forall k :: k in store ==> k in order
  }

  /** The stored documents in the order the store returns them. */
  function Documents(store: NotificationStore, order: seq<string>): (ds: seq<Notification>)
    requires NamesStored(store, order)
    ensures |ds| == |order|
    ensures forall i :: 0 <= i < |order| ==> ds[i] == store[order[i]]
  {
    seq(|order|, i requires 0 <= i < |order| => store[order[i]])
  }

  /** The store query's filter: notifications whose target is the user. */
  function AddressedTo(userId: string): Notification -> bool {
    (n: Notification) => n.targetId == userId
  }

  /** The list the page shows: the user's notifications, newest first. */
  function ClientNotifications(store: NotificationStore, order: seq<string>, userId: string): seq<Notification>
    requires EnumeratesStore(store, order)
  {
    SortByTime(Seqs.Filter(Documents(store, order), AddressedTo(userId)))
  }

  /** The shown list is newest first and holds only the user's notifications. */
  lemma ClientNotificationsShape(store: NotificationStore, order: seq<string>, userId: string)
    requires EnumeratesStore(store, order)
    ensures NewestFirst(ClientNotifications(store, order, userId))
    ensures forall m :: m in ClientNotifications(store, order, userId) ==> m.targetId == userId
  {
    var fetched := Seqs.Filter(Documents(store, order), AddressedTo(userId));
    SortByTimeNewestFirst(fetched);
    forall m | m in ClientNotifications(store, order, userId)
      ensures m.targetId == userId
    {
      assert m in multiset(SortByTime(fetched));
    }
  }

  /** Every notification stored for the user is in the shown list. */
  lemma ClientNotificationsComplete(store: NotificationStore, order: seq<string>, userId: string)
    requires EnumeratesStore(store, order)
    ensures forall id :: id in store && store[id].targetId == userId ==>
      store[id] in ClientNotifications(store, order, userId)
  {
    var docs := Documents(store, order);
    var fetched := Seqs.Filter(docs, AddressedTo(userId));
    forall id | id in store && store[id].targetId == userId
      ensures store[id] in ClientNotifications(store, order, userId)
    {
      var i :| 0 <= i < |order| && order[i] == id;
      assert docs[i] == store[id];
      assert store[id] in fetched;
      assert store[id] in multiset(SortByTime(fetched));
    }
  }

  /** The listing after its first id keeps both properties, and does not hold that id. */
  lemma ListingTail(store: NotificationStore, order: seq<string>)
    requires |order| > 0 && NamesStored(store, order) && NoRepeats(order)
    ensures NamesStored(store, order[1..]) && NoRepeats(order[1..])
    ensures order[0] !in order[1..]
    ensures Documents(store, order) == [store[order[0]]] + Documents(store, order[1..])
  {
    var tail := order[1..];
    forall i | 0 <= i < |tail| ensures tail[i] in store {
      assert tail[i] == order[i + 1];
    }
    forall i, j | 0 <= i < j < |tail| ensures tail[i] != tail[j] {
      assert tail[i] == order[i + 1] && tail[j] == order[j + 1];
    }
    forall j | 0 <= j < |tail| ensures tail[j] != order[0] {
      assert tail[j] == order[j + 1];
    }
  }

  /**
   * With every record under its own id, the documents of a listing without
   * repeats hold a record once when it is stored and not at all otherwise.
   */
  lemma {:induction false} DocumentsOnce(store: NotificationStore, order: seq<string>, n: Notification)
    requires WellKeyed(store) && NamesStored(store, order) && NoRepeats(order)
    ensures multiset(Documents(store, order))[n] ==
      if n.notificationId in order && store[n.notificationId] == n then 1 else 0
  {
    if |order| > 0 {
      var tail := order[1..];
      ListingTail(store, order);
      DocumentsOnce(store, tail, n);
      var ds := Documents(store, order);
      assert multiset(ds)[n] == (if store[order[0]] == n then 1 else 0) + multiset(Documents(store, tail))[n];
      assert n.notificationId in order <==> n.notificationId == order[0] || n.notificationId in tail;
    }
  }

  /**
   * With every record under its own id, the shown list holds each notification
   * stored for the user exactly once, and no other record.
   */
  lemma ClientNotificationsOnce(store: NotificationStore, order: seq<string>, userId: string)
    requires WellKeyed(store) && EnumeratesStore(store, order)
    ensures forall n :: (multiset(ClientNotifications(store, order, userId))[n] ==
                         if n.targetId == userId && n.notificationId in store && store[n.notificationId] == n then 1 else 0)
  {
    var docs := Documents(store, order);
    forall n
      ensures multiset(ClientNotifications(store, order, userId))[n] ==
        if n.targetId == userId && n.notificationId in store && store[n.notificationId] == n then 1 else 0
    {
      Seqs.FilterMultiplicity(docs, AddressedTo(userId), n);
      DocumentsOnce(store, order, n);
    }
  }

  /**
   * A stored unread notification addressed to the user puts at least one
   * unread record in the shown list.
   */
  lemma StoredUnreadIsCounted(store: NotificationStore, order: seq<string>, userId: string, id: string)
    requires EnumeratesStore(store, order)
    requires id in store && store[id].targetId == userId && IsUnread(store[id])
    ensures UnreadCount(ClientNotifications(store, order, userId)) > 0
  {
    ClientNotificationsComplete(store, order, userId);
    var ns := ClientNotifications(store, order, userId);
    assert store[id] in Seqs.Filter(ns, IsUnread);
  }

  lemma MarkReadInListConcat(a: seq<Notification>, b: seq<Notification>, id: string)
    ensures MarkReadInList(a + b, id) == MarkReadInList(a, id) + MarkReadInList(b, id)
  {
  }

  lemma {:induction false} FilterAddressedMarkRead(ns: seq<Notification>, id: string, userId: string)
    ensures Seqs.Filter(MarkReadInList(ns, id), AddressedTo(userId))
      == MarkReadInList(Seqs.Filter(ns, AddressedTo(userId)), id)
  {
    if |ns| > 0 {
      var p := AddressedTo(userId);
      var x := ns[0];
      var rest := ns[1..];
      assert ns == [x] + rest;
      assert MarkReadInList(ns, id) == [MarkReadOne(x, id)] + MarkReadInList(rest, id);
      Seqs.FilterCons(MarkReadOne(x, id), MarkReadInList(rest, id), p);
      Seqs.FilterCons(x, rest, p);
      FilterAddressedMarkRead(rest, id, userId);
      MarkReadInListConcat(if p(x) then [x] else [], Seqs.Filter(rest, p), id);
    }
  }

  /** Marking read keeps the listing, and marks the same record in the fetched documents. */
  lemma MarkReadDocuments(store: NotificationStore, order: seq<string>, id: string)
    requires WellKeyed(store) && EnumeratesStore(store, order)
    ensures EnumeratesStore(MarkRead(store, id), order)
    ensures Documents(MarkRead(store, id), order) == MarkReadInList(Documents(store, order), id)
  {
    var r := MarkRead(store, id);
    assert r.Keys == store.Keys;
    var before := Documents(store, order);
    var after := Documents(r, order);
    forall i | 0 <= i < |order|
      ensures after[i] == MarkReadOne(before[i], id)
    {
      assert store[order[i]].notificationId == order[i];
    }
  }

  /**
   * After `markNotifAsRead(id)` and the reload it triggers, the page shows the
   * same list in the same order, with only the record of that id now read.
   */
  lemma MarkReadThenReload(store: NotificationStore, order: seq<string>, userId: string, id: string)
    requires WellKeyed(store) && EnumeratesStore(store, order)
    ensures EnumeratesStore(MarkRead(store, id), order)
    ensures ClientNotifications(MarkRead(store, id), order, userId)
      == MarkReadInList(ClientNotifications(store, order, userId), id)
  {
    MarkReadDocuments(store, order, id);
    var before := Documents(store, order);
    FilterAddressedMarkRead(before, id, userId);
    SortMarkRead(Seqs.Filter(before, AddressedTo(userId)), id);
  }
}

=== FILE: profile.dfy ===
/**
 * Account classification on the client profile page: the normalised client
 * type, the owner identity of a company, and the companies a resident owns.
 *
 * Three of the page's tests on the same stored record:
 *   - the client type lower-cases the first non-empty of `type` and
 *     `accountType`; the owner card the page renders follows it;
 *   - the `ownerResident` state is set when either field is exactly
 *     "company" (the page never reads that state back);
 *   - related companies are looked up only when `type` is exactly "resident".
 * The model keeps all three as written, and the lemmas at the end show the
 * records on which they disagree. A fourth, the exact-case `type` test that
 * picks the non-resident card (line 485 of the page), belongs to rendering
 * and is not modelled.
 */
module Profile {
  import opened JsValues
  import Text
  import Seqs

  /**
   * A stored user document. Every field may be missing. The source's `type`
   * field is `typeTag` here because `type` is a Dafny keyword.
   */
  datatype Account = Account(
    userId: Option<string>,
    name: Option<string>,
    typeTag: Option<string>,
    accountType: Option<string>,
    phone: Option<string>,
    walletBalance: Option<int>,
    coins: Option<int>,
    owner: Option<string>,
    ownerFirstName: Option<string>,
    ownerMiddleName: Option<string>,
    ownerLastName: Option<string>,
    ownerBirthDate: Option<string>,
    ownerGender: Option<string>,
    ownerNationality: Option<string>)

  /** The owner identity of a company account: six owner fields and the account's phone. */
  datatype OwnerIdentity = OwnerIdentity(
    firstName: Option<string>,
    middleName: Option<string>,
    lastName: Option<string>,
    birthDate: Option<string>,
    gender: Option<string>,
    nationality: Option<string>,
    phone: Option<string>)

  /**
   * The client type that selects the services shown: the first non-empty of
   * `type` and `accountType`, lower-cased but not trimmed, or "" when both are
   * missing or empty.
   */
  function ClientType(a: Account): (t: string)
    ensures Truthy(a.typeTag) ==> t == Text.Lower(a.typeTag.value)
    ensures !Truthy(a.typeTag) && Truthy(a.accountType) ==> t == Text.Lower(a.accountType.value)
    ensures !Truthy(a.typeTag) && !Truthy(a.accountType) ==> t == ""
    ensures forall i :: 0 <= i < |t| ==> !Text.IsUpper(t[i])
  {
    Text.Lower(FirstTruthy(a.typeTag, a.accountType))
  }

  /** Either type field holds exactly "company" (no case folding). */
  predicate StoredAsCompany(a: Account) {
    a.typeTag == Some("company") || a.accountType == Some("company")
  }

  /** The owner identity copied out of a company document. */
  function OwnerFields(a: Account): OwnerIdentity {
    OwnerIdentity(a.ownerFirstName, a.ownerMiddleName, a.ownerLastName,
                  a.ownerBirthDate, a.ownerGender, a.ownerNationality, a.phone)
  }

  /** The copied identity holds the six owner fields and the account's own phone. */
  predicate IsOwnerIdentityOf(o: OwnerIdentity, a: Account) {
    && o.firstName == a.ownerFirstName
    && o.middleName == a.ownerMiddleName
    && o.lastName == a.ownerLastName
    && o.birthDate == a.ownerBirthDate
    && o.gender == a.ownerGender
    && o.nationality == a.ownerNationality
    && o.phone == a.phone
  }

  /**
   * The `ownerResident` state the load sets: present exactly for records
   * stored as "company". The page never displays it.
   */
  function OwnerResident(a: Account): (o: Option<OwnerIdentity>)
    ensures o.Some? <==> StoredAsCompany(a)
    ensures o.Some? ==> IsOwnerIdentityOf(o.value, a)
  {
    if StoredAsCompany(a) then Some(OwnerFields(a)) else None
  }

  /**
   * The owner card the page renders in the personal section: present exactly
   * when the client type is "company", built from the same fields.
   */
  function RenderedOwnerCard(a: Account): (o: Option<OwnerIdentity>)
    ensures o.Some? <==> ClientType(a) == "company"
    ensures o.Some? ==> IsOwnerIdentityOf(o.value, a)
  {
    if ClientType(a) == "company" then Some(OwnerFields(a)) else None
  }

  /** Where both exist, the rendered card and the `ownerResident` state hold the same identity. */
  lemma OwnerCardMatchesOwnerResident(a: Account)
    requires RenderedOwnerCard(a).Some? && OwnerResident(a).Some?
    ensures RenderedOwnerCard(a) == OwnerResident(a)
  {
  }

  /** The related-company lookup runs: `type` is exactly "resident" and `userId` is non-empty. */
  predicate LooksUpCompanies(user: Option<Account>) {
    user.Some? && user.value.typeTag == Some("resident") && Truthy(user.value.userId)
  }

  /** A company document whose `owner` is the resident's name or id. */
  predicate OwnedBy(c: Account, resident: Account) {
    && c.typeTag == Some("company")
    && c.owner.Some?
    && (c.owner == resident.name || c.owner == resident.userId)
  }

  /** The companies shown to a resident, in the order the store returns them. */
  function RelatedCompanies(user: Option<Account>, accounts: seq<Account>): (r: seq<Account>)
    ensures forall c :: c in r <==>
      LooksUpCompanies(user) && c in accounts && c.typeTag == Some("company") &&
      c.owner.Some? && (c.owner == user.value.name || c.owner == user.value.userId)
    ensures !LooksUpCompanies(user) ==> r == []
  {
    if LooksUpCompanies(user) then Seqs.Filter(accounts, c => OwnedBy(c, user.value))
    else []
  }

  /** The lookup keeps store order: companies from an earlier batch of documents come first. */
  lemma RelatedCompaniesKeepOrder(user: Option<Account>, a: seq<Account>, b: seq<Account>)
    ensures RelatedCompanies(user, a + b) == RelatedCompanies(user, a) + RelatedCompanies(user, b)
  {
    if LooksUpCompanies(user) {
      Seqs.FilterConcat(a, b, c => OwnedBy(c, user.value));
    }
  }

  /** Each owned company appears as often as it is stored; everything else not at all. */
  lemma RelatedCompaniesMultiplicity(user: Option<Account>, accounts: seq<Account>, c: Account)
    requires LooksUpCompanies(user)
    ensures multiset(RelatedCompanies(user, accounts))[c] ==
      if OwnedBy(c, user.value) then multiset(accounts)[c] else 0
  {
    Seqs.FilterMultiplicity(accounts, c => OwnedBy(c, user.value), c);
  }

  // ---------------------------------------------------------------------------
  // Where the three tests agree and where they do not

  /** A record whose `type` is exactly "company" is a company for every test. */
  lemma ExactCompanyAgrees(a: Account)
    requires a.typeTag == Some("company")
    ensures ClientType(a) == "company"
    ensures OwnerResident(a).Some? && RenderedOwnerCard(a).Some?
  {
    assert Text.Lower("company") == "company";
  }

  /**
   * Whenever the rendered owner card and the `ownerResident` state disagree,
   * it is because the field that decides the client type is not spelt exactly
   * "company": either `type` is a non-empty other value that shadows
   * `accountType == "company"`, or the deciding field is a differently-cased
   * "company".
   */
  lemma OwnerResidentMismatch(a: Account)
    ensures OwnerResident(a).Some? && RenderedOwnerCard(a).None? ==>
      Truthy(a.typeTag) && a.typeTag != Some("company") && a.accountType == Some("company")
    ensures OwnerResident(a).None? && RenderedOwnerCard(a).Some? ==>
      FirstTruthy(a.typeTag, a.accountType) != "company"
  {
    assert Text.Lower("company") == "company";
  }

  /** The sample records on which the tests disagree. */
  function SampleAccount(typeTag: Option<string>, accountType: Option<string>): Account {
    Account(Some("R1"), Some("Alice"), typeTag, accountType, None, None, None, None,
            None, None, None, None, None, None)
  }

  /** `type: "Company"` is a company with a rendered owner card, but no `ownerResident` is set. */
  lemma MixedCaseCompanyHasNoOwnerResident()
    ensures ClientType(SampleAccount(Some("Company"), None)) == "company"
    ensures RenderedOwnerCard(SampleAccount(Some("Company"), None)).Some?
    ensures OwnerResident(SampleAccount(Some("Company"), None)).None?
  {
    assert Text.Lower("Company") == "company";
  }

  /** `type: "resident"` with `accountType: "company"` is a resident: `ownerResident` is set, but no owner card is rendered. */
  lemma ShadowedCompanyHasOwnerResident()
    ensures ClientType(SampleAccount(Some("resident"), Some("company"))) == "resident"
    ensures OwnerResident(SampleAccount(Some("resident"), Some("company"))).Some?
    ensures RenderedOwnerCard(SampleAccount(Some("resident"), Some("company"))).None?
  {
    assert Text.Lower("resident") == "resident";
  }

  /** `type: "Resident"` sees resident services but its companies are never looked up. */
  lemma MixedCaseResidentHasNoCompanies(accounts: seq<Account>)
    ensures ClientType(SampleAccount(Some("Resident"), None)) == "resident"
    ensures RelatedCompanies(Some(SampleAccount(Some("Resident"), None)), accounts) == []
  {
    assert Text.Lower("Resident") == "resident";
  }
}

=== FILE: seqs.dfy ===
/**
 * Order-preserving filtering of sequences, the shape of every query and
 * bucket the dashboard builds (`Array.prototype.filter`, a `forEach` that
 * pushes matching elements, a store query over documents in store order).
 */
module Seqs {

  /** The elements of `s` satisfying `p`, in their order in `s`. */
  function Filter<T(==,!new)>(s: seq<T>, p: T -> bool): (r: seq<T>)
    ensures |r| <= |s|
    ensures forall x :: x in r <==> x in s && p(x)
    ensures forall i :: 0 <= i < |r| ==> p(r[i])
  {
    if |s| == 0 then []
    else (if p(s[0]) then [s[0]] else []) + Filter(s[1..], p)
  }

  /** Filtering distributes over concatenation: the relative order of kept elements is the input order. */
  lemma {:induction false} FilterConcat<T(!new)>(a: seq<T>, b: seq<T>, p: T -> bool)
    ensures Filter(a + b, p) == Filter(a, p) + Filter(b, p)
  {
    if |a| == 0 {
      assert a + b == b;
    } else {
      assert (a + b)[0] == a[0];
      assert (a + b)[1..] == a[1..] + b;
      FilterConcat(a[1..], b, p);
    }
  }

  /** Filtering a sequence with one element in front. */
  lemma FilterCons<T(!new)>(x: T, s: seq<T>, p: T -> bool)
    ensures Filter([x] + s, p) == (if p(x) then [x] else []) + Filter(s, p)
  {
    assert ([x] + s)[1..] == s;
  }

  /** Filtering a sequence extended by one element (the step of a push loop). */
  lemma FilterSnoc<T(!new)>(s: seq<T>, x: T, p: T -> bool)
    ensures Filter(s + [x], p) == Filter(s, p) + (if p(x) then [x] else [])
  {
    FilterConcat(s, [x], p);
    assert Filter([x], p) == (if p(x) then [x] else []) + Filter([x][1..], p);
  }

  /** Every kept element keeps its multiplicity; every other element is dropped entirely. */
  lemma {:induction false} FilterMultiplicity<T(!new)>(s: seq<T>, p: T -> bool, x: T)
    ensures multiset(Filter(s, p))[x] == if p(x) then multiset(s)[x] else 0
  {
    if |s| > 0 {
      assert s == [s[0]] + s[1..];
      FilterMultiplicity(s[1..], p, x);
      assert multiset(s) == multiset{s[0]} + multiset(s[1..]);
      assert multiset(Filter(s, p)) == multiset(if p(s[0]) then [s[0]] else []) + multiset(Filter(s[1..], p));
    }
  }

  /** Sequences with the same elements, counted with multiplicity, keep the same elements, in any order. */
  lemma FilterSameMultiset<T(!new)>(a: seq<T>, b: seq<T>, p: T -> bool)
    requires multiset(a) == multiset(b)
    ensures multiset(Filter(a, p)) == multiset(Filter(b, p))
    ensures |Filter(a, p)| == |Filter(b, p)|
  {
    forall x
      ensures multiset(Filter(a, p))[x] == multiset(Filter(b, p))[x]
    {
      FilterMultiplicity(a, p, x);
      FilterMultiplicity(b, p, x);
    }
    assert multiset(Filter(a, p)) == multiset(Filter(b, p));
    assert |multiset(Filter(a, p))| == |Filter(a, p)|;
  }
}

=== FILE: text.dfy ===
/**
 * The string primitives the dashboard page relies on: `toLowerCase`, `trim`,
 * `includes`, `localeCompare` and the decimal rendering of a number inside a
 * template literal.
 *
 * Lower-casing is ASCII lower-casing and comparison is plain lexicographic
 * order on characters; the locale-aware behaviour of the JavaScript built-ins
 * is not modelled. `trim` removes exactly the ECMAScript WhiteSpace and
 * LineTerminator characters.
 */
module Text {

  // ---------------------------------------------------------------------------
  // toLowerCase

  predicate IsUpper(c: char) {
    'A' <= c <= 'Z'
  }

  function LowerChar(c: char): (d: char)
    ensures !IsUpper(d)
    ensures IsUpper(c) ==> d as int == c as int + 32
    ensures !IsUpper(c) ==> d == c
  {
    if IsUpper(c) then (c as int + 32) as char else c
  }

  /** `s.toLowerCase()`, character by character. */
  function Lower(s: string): (r: string)
    ensures |r| == |s|
    ensures forall i :: 0 <= i < |s| ==> r[i] == LowerChar(s[i])
  {
    seq(|s|, i requires 0 <= i < |s| => LowerChar(s[i]))
  }

  /** Lower-casing twice is lower-casing once. */
  lemma LowerIdempotent(s: string)
    ensures Lower(Lower(s)) == Lower(s)
  {
  }

  /** Lower-casing a slice is slicing the lower-cased string. */
  lemma LowerSlice(s: string, i: int, j: int)
    requires 0 <= i <= j <= |s|
    ensures Lower(s)[i..j] == Lower(s[i..j])
  {
    var a := Lower(s)[i..j];
    var b := Lower(s[i..j]);
    assert |a| == |b|;
    forall k | 0 <= k < |a|
      ensures a[k] == b[k]
    {
      assert a[k] == LowerChar(s[i + k]);
    }
  }

  // ---------------------------------------------------------------------------
  // trim

  /** The characters `String.prototype.trim` removes: WhiteSpace and LineTerminator. */
  predicate IsJsWhitespace(c: char) {
    || c == '\t' || c == '\n' || c == '\U{B}' || c == '\U{C}' || c == '\r'
    || c == ' ' || c == '\U{A0}' || c == '\U{1680}'
    || ('\U{2000}' <= c <= '\U{200A}')
    || c == '\U{2028}' || c == '\U{2029}' || c == '\U{202F}' || c == '\U{205F}'
    || c == '\U{3000}' || c == '\U{FEFF}'
  }

  predicate AllWhitespace(s: string) {
    forall i :: 0 <= i < |s| ==> IsJsWhitespace(s[i])
  }

  /** Number of leading whitespace characters. */
  function LeadingWhitespace(s: string): (n: nat)
    ensures n <= |s|
    ensures AllWhitespace(s[..n])
    ensures n < |s| ==> !IsJsWhitespace(s[n])
  {
    if |s| == 0 || !IsJsWhitespace(s[0]) then 0
    else
      var m := LeadingWhitespace(s[1..]);
      assert s[..m + 1] == [s[0]] + s[1..][..m];
      m + 1
  }

  /** Length of `s` without its trailing whitespace. */
  function TrailingStart(s: string): (n: nat)
    ensures n <= |s|
    ensures AllWhitespace(s[n..])
    ensures 0 < n ==> !IsJsWhitespace(s[n - 1])
  {
    if |s| == 0 || !IsJsWhitespace(s[|s| - 1]) then |s|
    else
      var t := s[..|s| - 1];
      var m := TrailingStart(t);
      assert AllWhitespace(s[m..]) by {
        forall i | 0 <= i < |s| - m
          ensures IsJsWhitespace(s[m..][i])
        {
          if i < |t| - m {
            assert s[m..][i] == t[m..][i];
          }
        }
      }
      m
  }

  /**
   * `s.trim()`: the slice of `s` left after removing leading and trailing
   * whitespace, which is empty exactly when `s` is all whitespace.
   */
  function Trim(s: string): (r: string)
    ensures LeadingWhitespace(s) + |r| <= |s|
    ensures r == s[LeadingWhitespace(s)..LeadingWhitespace(s) + |r|]
    ensures AllWhitespace(s[..LeadingWhitespace(s)])
    ensures AllWhitespace(s[LeadingWhitespace(s) + |r|..])
    ensures |r| > 0 ==> !IsJsWhitespace(r[0]) && !IsJsWhitespace(r[|r| - 1])
    ensures r == "" <==> AllWhitespace(s)
  {
    var i := LeadingWhitespace(s);
    var j := TrailingStart(s);
    if i == |s| then
      assert s[..i] == s;
      ""
    else
      assert i < j;
      assert !AllWhitespace(s) by {
        assert !IsJsWhitespace(s[i]);
      }
      assert s[j..] == s[i + (j - i)..];
      s[i..j]
  }

  /** Whitespace in front of a word is exactly what the leading count counts. */
  lemma {:induction false} LeadingWhitespacePadded(pad: string, t: string)
    requires AllWhitespace(pad)
    requires |t| > 0 && !IsJsWhitespace(t[0])
    ensures LeadingWhitespace(pad + t) == |pad|
    decreases |pad|
  {
    if |pad| > 0 {
      assert (pad + t)[1..] == pad[1..] + t;
      LeadingWhitespacePadded(pad[1..], t);
    }
  }

  /** Whitespace after a word is exactly what the trailing count cuts off. */
  lemma {:induction false} TrailingStartPadded(t: string, pad: string)
    requires AllWhitespace(pad)
    requires |t| > 0 && !IsJsWhitespace(t[|t| - 1])
    ensures TrailingStart(t + pad) == |t|
    decreases |pad|
  {
    if |pad| == 0 {
      assert t + pad == t;
    } else {
      var s := t + pad;
      assert s[..|s| - 1] == t + pad[..|pad| - 1];
      TrailingStartPadded(t, pad[..|pad| - 1]);
    }
  }

  /** Trimming removes whitespace padding and nothing else. */
  lemma TrimPadded(pad1: string, core: string, pad2: string)
    requires AllWhitespace(pad1) && AllWhitespace(pad2)
    requires |core| > 0 && !IsJsWhitespace(core[0]) && !IsJsWhitespace(core[|core| - 1])
    ensures Trim(pad1 + core + pad2) == core
  {
    var s := pad1 + core + pad2;
    assert s == pad1 + (core + pad2);
    LeadingWhitespacePadded(pad1, core + pad2);
    TrailingStartPadded(pad1 + core, pad2);
    assert s[|pad1|..|pad1| + |core|] == core;
  }

  // ---------------------------------------------------------------------------
  // includes

  /** `p` occurs in `s` starting at offset `i`. */
  predicate OccursAt(p: string, s: string, i: int) {
    0 <= i <= |s| - |p| && s[i..i + |p|] == p
  }

  /** Reference meaning of `s.includes(p)`: `p` occurs in `s` at some offset. */
  ghost predicate OccursIn(p: string, s: string) {
    exists i :: OccursAt(p, s, i)
  }

  /** `s.includes(p)`, scanning offsets left to right. */
  predicate Contains(s: string, p: string)
    decreases |s|
  {
    if |p| > |s| then false
    else p == s[..|p|] || Contains(s[1..], p)
  }

  /** An occurrence in the tail is an occurrence one offset later in the whole. */
  lemma OccursInTail(p: string, s: string, i: int)
    requires |s| > 0 && 0 <= i
    ensures OccursAt(p, s[1..], i) <==> OccursAt(p, s, i + 1)
  {
    if 0 <= i <= |s| - 1 - |p| {
      var inTail, inWhole := s[1..][i..i + |p|], s[i + 1..i + 1 + |p|];
      forall k | 0 <= k < |p|
        ensures inTail[k] == inWhole[k]
      {
      }
      assert inTail == inWhole;
    }
  }

  /** The scan finds `p` exactly when `p` occurs in `s`. */
  lemma {:induction false} ContainsOccurs(s: string, p: string)
    ensures Contains(s, p) <==> OccursIn(p, s)
    decreases |s|
  {
    if |p| > |s| {
    } else if p == s[..|p|] {
      assert OccursAt(p, s, 0);
    } else {
      ContainsOccurs(s[1..], p);
      if Contains(s[1..], p) {
        var i :| OccursAt(p, s[1..], i);
        OccursInTail(p, s, i);
      }
      if OccursIn(p, s) {
        var i :| OccursAt(p, s, i);
        assert i != 0;
        OccursInTail(p, s, i - 1);
      }
    }
  }

  /** Every string includes the empty string. */
  lemma ContainsEmpty(s: string)
    ensures Contains(s, "")
  {
    assert "" == s[..0];
  }

  // ---------------------------------------------------------------------------
  // localeCompare, as lexicographic order on characters

  /** `a <= b` in lexicographic order. */
  predicate LexLe(a: string, b: string)
    decreases |a|
  {
    if |a| == 0 then true
    else if |b| == 0 then false
    else if a[0] != b[0] then a[0] < b[0]
    else LexLe(a[1..], b[1..])
  }

  lemma {:induction false} LexTotal(a: string, b: string)
    ensures LexLe(a, b) || LexLe(b, a)
    decreases |a|
  {
    if |a| > 0 && |b| > 0 && a[0] == b[0] {
      LexTotal(a[1..], b[1..]);
    }
  }

  lemma {:induction false} LexTransitive(a: string, b: string, c: string)
    requires LexLe(a, b) && LexLe(b, c)
    ensures LexLe(a, c)
    decreases |a|
  {
    if |a| > 0 && |b| > 0 && |c| > 0 && a[0] == b[0] && b[0] == c[0] {
      LexTransitive(a[1..], b[1..], c[1..]);
    }
  }

  lemma {:induction false} LexAntisymmetric(a: string, b: string)
    requires LexLe(a, b) && LexLe(b, a)
    ensures a == b
    decreases |a|
  {
    if |a| > 0 {
      LexAntisymmetric(a[1..], b[1..]);
      assert a == [a[0]] + a[1..];
      assert b == [b[0]] + b[1..];
    }
  }

  /** The empty string is below every string, and only the empty string is below it. */
  lemma EmptyIsLeast(a: string)
    ensures LexLe("", a)
    ensures LexLe(a, "") <==> a == ""
  {
  }

  // ---------------------------------------------------------------------------
  // Decimal rendering of numbers in template literals

  predicate IsDigit(c: char) {
    '0' <= c <= '9'
  }

  function DigitChar(d: nat): (c: char)
    requires d < 10
    ensures IsDigit(c)
  {
    ('0' as int + d) as char
  }

  function DigitValue(c: char): (d: nat)
    requires IsDigit(c)
    ensures d < 10
  {
    c as int - '0' as int
  }

  /** `${n}` for a non-negative integer: its decimal digits, most significant first. */
  function NatToDecimal(n: nat): (r: string)
    ensures |r| > 0
    ensures forall i :: 0 <= i < |r| ==> IsDigit(r[i])
  {
    if n < 10 then [DigitChar(n)]
    else NatToDecimal(n / 10) + [DigitChar(n % 10)]
  }

  /** `${n}` for an integer: a minus sign in front of a negative number. */
  function IntToDecimal(n: int): string {
    if n < 0 then "-" + NatToDecimal(-n) else NatToDecimal(n)
  }

  /** The value of a string of decimal digits. */
  function ParseDecimal(s: string): nat
    requires forall i :: 0 <= i < |s| ==> IsDigit(s[i])
  {
    if |s| == 0 then 0
    else ParseDecimal(s[..|s| - 1]) * 10 + DigitValue(s[|s| - 1])
  }

  /** Reading back the rendered digits gives the number. */
  lemma {:induction false} DecimalRoundTrip(n: nat)
    ensures ParseDecimal(NatToDecimal(n)) == n
  {
    if n >= 10 {
      var r := NatToDecimal(n);
      assert r[..|r| - 1] == NatToDecimal(n / 10);
      DecimalRoundTrip(n / 10);
    }
  }

  /** Distinct numbers render to distinct digit strings. */
  lemma DecimalInjective(a: nat, b: nat)
    requires NatToDecimal(a) == NatToDecimal(b)
    ensures a == b
  {
    DecimalRoundTrip(a);
    DecimalRoundTrip(b);
  }
}

=== FILE: wallet.dfy ===
/**
 * The wallet top-up of the client profile page. The payment gateway's
 * verdict is an input; on success the page credits the wallet from the
 * client record it loaded, notifies the client, and, for the four top-up
 * tiers, also credits bonus coins and notifies again. The top-up is a list
 * of store writes issued in order; `ApplyWrites` plays them against a store.
 */
module Wallet {
  import opened JsValues
  import Text
  import Seqs
  import opened Profile
  import opened Ledger

  /** The bonus coins for a top-up amount: a fixed table of four tiers, 0 for any other amount. */
  function Bonus(amount: int): (b: nat)
    ensures b > 0 <==> amount == 100 || amount == 500 || amount == 1000 || amount == 5000
    ensures b > 0 ==> 2 * b == amount
  {
    if amount == 100 then 50
    else if amount == 500 then 250
    else if amount == 1000 then 500
    else if amount == 5000 then 2500
    else 0
  }

  /** The payment gateway's verdict: exactly one of its two callbacks runs. */
  datatype GatewayOutcome = Success | Failure

  /** One store write, in the order the page awaits them. */
  datatype Write =
    | SetWalletBalance(userId: string, value: int)
    | SetCoins(userId: string, value: int)
    | CreateNotification(record: Notification)

  function WalletChargedTitle(lang: string): string {
    if lang == "ar" then "تم شحن المحفظة" else "Wallet Charged"
  }

  function WalletChargedBody(lang: string, amount: int): string {
    if lang == "ar" then "تم شحن محفظتك بمبلغ " + Text.IntToDecimal(amount) + " درهم."
    else "Your wallet was charged with " + Text.IntToDecimal(amount) + " AED."
  }

  function CoinsAddedTitle(lang: string): string {
    if lang == "ar" then "تم إضافة كوينات" else "Coins Added"
  }

  function CoinsAddedBody(lang: string, bonus: int): string {
    if lang == "ar" then "تم إضافة " + Text.IntToDecimal(bonus) + " كوين لرصيدك كمكافأة شحن المحفظة."
    else "You received " + Text.IntToDecimal(bonus) + " coins as wallet charge bonus."
  }

  /** The page can address the client's document: a client is loaded and its `userId` is non-empty. */
  predicate CanCredit(client: Option<Account>) {
    client.Some? && Truthy(client.value.userId)
  }

  function IsNotificationWrite(w: Write): bool {
    w.CreateNotification?
  }

  /** How many notifications a list of writes creates. */
  function NotificationWrites(ws: seq<Write>): nat {
    |Seqs.Filter(ws, IsNotificationWrite)|
  }

  function WalletNotice(u: string, amount: int, lang: string, first: Stamp): Notification {
    NewNotification(first, u, WalletChargedTitle(lang), WalletChargedBody(lang, amount))
  }

  function CoinsNotice(u: string, bonus: int, lang: string, second: Stamp): Notification {
    NewNotification(second, u, CoinsAddedTitle(lang), CoinsAddedBody(lang, bonus))
  }

  /** The wallet credit and its notification. */
  function WalletWrites(u: string, c: Account, amount: int, lang: string, first: Stamp): seq<Write> {
    [SetWalletBalance(u, OrZero(c.walletBalance) + amount), CreateNotification(WalletNotice(u, amount, lang, first))]
  }

  /** The coin credit and its notification, for a positive bonus. */
  function CoinWrites(u: string, c: Account, bonus: int, lang: string, second: Stamp): seq<Write> {
    [SetCoins(u, OrZero(c.coins) + bonus), CreateNotification(CoinsNotice(u, bonus, lang, second))]
  }

  /**
   * `handleWalletCharge(amount)` followed by the gateway's verdict. The new
   * balances are computed from the loaded `client` record, absent balances
   * counting as 0. On success the wallet write and its notification come
   * first; the coin write and a second notification follow only when the
   * amount earns a bonus. A failure, a missing client, or a client without a
   * usable `userId` writes nothing.
   */
  function TopUp(client: Option<Account>, amount: int, lang: string, outcome: GatewayOutcome,
                 first: Stamp, second: Stamp): (ws: seq<Write>)
    ensures outcome.Failure? || !CanCredit(client) ==> ws == []
    ensures outcome.Success? && CanCredit(client) ==>
      var u := client.value.userId.value;
      && |ws| == (if Bonus(amount) > 0 then 4 else 2)
      && ws[0] == SetWalletBalance(u, OrZero(client.value.walletBalance) + amount)
      && ws[1].CreateNotification? && ws[1].record.targetId == u
      && IsUnread(ws[1].record) && ws[1].record.typeTag == "wallet"
      && (Bonus(amount) > 0 ==>
            && ws[2] == SetCoins(u, OrZero(client.value.coins) + Bonus(amount))
            && ws[3].CreateNotification? && ws[3].record.targetId == u
            && IsUnread(ws[3].record) && ws[3].record.typeTag == "wallet")
  {
    if outcome.Failure? || !CanCredit(client) then []
    else
      var c := client.value;
      var u := c.userId.value;
      var bonus := Bonus(amount);
      WalletWrites(u, c, amount, lang, first) + (if bonus > 0 then CoinWrites(u, c, bonus, lang, second) else [])
  }

  /** A successful top-up notifies once per balance it changes: twice for a tier amount, once otherwise. */
  lemma TopUpNotificationCount(client: Option<Account>, amount: int, lang: string, outcome: GatewayOutcome,
                               first: Stamp, second: Stamp)
    ensures NotificationWrites(TopUp(client, amount, lang, outcome, first, second)) ==
      if outcome.Failure? || !CanCredit(client) then 0
      else if Bonus(amount) > 0 then 2 else 1
  {
    if outcome.Success? && CanCredit(client) {
      var c := client.value;
      var u := c.userId.value;
      var walletPart := WalletWrites(u, c, amount, lang, first);
      var coinPart := if Bonus(amount) > 0 then CoinWrites(u, c, Bonus(amount), lang, second) else [];
      Seqs.FilterConcat(walletPart, coinPart, IsNotificationWrite);
      assert Seqs.Filter(walletPart, IsNotificationWrite) == [walletPart[1]] by {
        assert walletPart[1..][1..] == [];
      }
      if Bonus(amount) > 0 {
        assert Seqs.Filter(coinPart, IsNotificationWrite) == [coinPart[1]] by {
          assert coinPart[1..][1..] == [];
        }
      }
    }
  }

  // ---------------------------------------------------------------------------
  // Playing the writes against the store

  /** The user and notification documents. */
  datatype Store = Store(users: map<string, Account>, notifications: NotificationStore)

  /**
   * One awaited write: a field update of a missing user document is refused
   * (`None`); creating a notification always succeeds and overwrites a
   * colliding id.
   */
  function ApplyWrite(st: Store, w: Write): Option<Store> {
    match w
    case SetWalletBalance(u, v) =>
      if u in st.users then Some(st.(users := st.users[u := st.users[u].(walletBalance := Some(v))])) else None
    case SetCoins(u, v) =>
      if u in st.users then Some(st.(users := st.users[u := st.users[u].(coins := Some(v))])) else None
    case CreateNotification(n) =>
      Some(st.(notifications := Put(st.notifications, n)))
  }

  /** The writes in order; a refused write ends the sequence, as its rejection aborts the callback. */
  function ApplyWrites(st: Store, ws: seq<Write>): Store
    decreases |ws|
  {
    if |ws| == 0 then st
    else match ApplyWrite(st, ws[0])
      case None => st
      case Some(next) => ApplyWrites(next, ws[1..])
  }

  /** The balances a successful top-up leaves on the client's document. */
  function Credited(stored: Account, snapshot: Account, amount: int): (a: Account)
    ensures a.walletBalance == Some(OrZero(snapshot.walletBalance) + amount)
    ensures Bonus(amount) > 0 ==> a.coins == Some(OrZero(snapshot.coins) + Bonus(amount))
    ensures Bonus(amount) == 0 ==> a.coins == stored.coins
    ensures a == stored.(walletBalance := a.walletBalance, coins := a.coins)
  {
    stored.(walletBalance := Some(OrZero(snapshot.walletBalance) + amount),
            coins := if Bonus(amount) > 0 then Some(OrZero(snapshot.coins) + Bonus(amount)) else stored.coins)
  }

  /** The store after the wallet credit and its notification. */
  function AfterWalletPart(st: Store, u: string, c: Account, amount: int, lang: string, first: Stamp): Store
    requires u in st.users
  {
    st.(users := st.users[u := st.users[u].(walletBalance := Some(OrZero(c.walletBalance) + amount))],
        notifications := Put(st.notifications, WalletNotice(u, amount, lang, first)))
  }

  /** The store after the coin credit and its notification. */
  function AfterCoinPart(st: Store, u: string, c: Account, bonus: int, lang: string, second: Stamp): Store
    requires u in st.users
  {
    st.(users := st.users[u := st.users[u].(coins := Some(OrZero(c.coins) + bonus))],
        notifications := Put(st.notifications, CoinsNotice(u, bonus, lang, second)))
  }

  /** The store after every write of a successful top-up. */
  function Charged(st: Store, u: string, c: Account, amount: int, lang: string, first: Stamp, second: Stamp): Store
    requires u in st.users
  {
    var s2 := AfterWalletPart(st, u, c, amount, lang, first);
    if Bonus(amount) > 0 then AfterCoinPart(s2, u, c, Bonus(amount), lang, second) else s2
  }

  /** The writes of a successful top-up, played in order against a store holding the client's document. */
  lemma {:induction false} TopUpSteps(st: Store, client: Option<Account>, amount: int, lang: string, first: Stamp, second: Stamp)
    requires CanCredit(client) && client.value.userId.value in st.users
    ensures ApplyWrites(st, TopUp(client, amount, lang, Success, first, second)) ==
      Charged(st, client.value.userId.value, client.value, amount, lang, first, second)
  {
    var c := client.value;
    var u := c.userId.value;
    var wp := WalletWrites(u, c, amount, lang, first);
    var s2 := AfterWalletPart(st, u, c, amount, lang, first);
    if Bonus(amount) > 0 {
      var cp := CoinWrites(u, c, Bonus(amount), lang, second);
      WalletPart(st, u, c, amount, lang, first, cp);
      CoinPart(s2, u, c, Bonus(amount), lang, second, []);
      assert TopUp(client, amount, lang, Success, first, second) == wp + cp;
      assert cp + [] == cp;
    } else {
      WalletPart(st, u, c, amount, lang, first, []);
      assert TopUp(client, amount, lang, Success, first, second) == wp + [];
      assert ApplyWrites(s2, []) == s2;
    }
  }

  /**
   * A successful top-up against a store holding the client's document sets
   * the wallet to the loaded balance plus the amount and, for a tier amount,
   * the coins to the loaded coins plus the bonus. No other field and no other
   * user changes, and the notification store gains the first stamp's id and,
   * for a tier amount, the second's, each holding an unread notification for
   * the client.
   */
  lemma TopUpCredits(st: Store, client: Option<Account>, amount: int, lang: string, first: Stamp, second: Stamp)
    requires CanCredit(client) && client.value.userId.value in st.users
    ensures var u := client.value.userId.value;
      var after := ApplyWrites(st, TopUp(client, amount, lang, Success, first, second));
      var id1 := NotificationId(first.millis, first.salt);
      var id2 := NotificationId(second.millis, second.salt);
      && after.users == st.users[u := Credited(st.users[u], client.value, amount)]
      && after.notifications.Keys == st.notifications.Keys + {id1} + (if Bonus(amount) > 0 then {id2} else {})
      && (forall k :: k in st.notifications && k != id1 && (Bonus(amount) > 0 ==> k != id2) ==>
            after.notifications[k] == st.notifications[k])
      && after.notifications[id1].targetId == u && IsUnread(after.notifications[id1])
      && (Bonus(amount) > 0 ==> after.notifications[id2].targetId == u && IsUnread(after.notifications[id2]))
  {
    TopUpSteps(st, client, amount, lang, first, second);
    ChargedUsers(st, client.value.userId.value, client.value, amount, lang, first, second);
    ChargedNotifications(st, client.value.userId.value, client.value, amount, lang, first, second);
  }

  /** The user documents after a successful top-up: only the client's balances change. */
  lemma ChargedUsers(st: Store, u: string, c: Account, amount: int, lang: string, first: Stamp, second: Stamp)
    requires u in st.users
    ensures Charged(st, u, c, amount, lang, first, second).users == st.users[u := Credited(st.users[u], c, amount)]
  {
    var s2 := AfterWalletPart(st, u, c, amount, lang, first);
    var credited := st.users[u].(walletBalance := Some(OrZero(c.walletBalance) + amount));
    assert s2.users == st.users[u := credited];
    if Bonus(amount) > 0 {
      var s4 := AfterCoinPart(s2, u, c, Bonus(amount), lang, second);
      assert s4.users == st.users[u := credited.(coins := Some(OrZero(c.coins) + Bonus(amount)))];
    }
  }

  /**
   * The notification documents after a successful top-up: one unread record
   * for the client under each stamp's id, every other record as before.
   */
  lemma ChargedNotifications(st: Store, u: string, c: Account, amount: int, lang: string, first: Stamp, second: Stamp)
    requires u in st.users
    ensures var after := Charged(st, u, c, amount, lang, first, second);
      var id1 := NotificationId(first.millis, first.salt);
      var id2 := NotificationId(second.millis, second.salt);
      && after.notifications.Keys == st.notifications.Keys + {id1} + (if Bonus(amount) > 0 then {id2} else {})
      && (forall k :: k in st.notifications && k != id1 && (Bonus(amount) > 0 ==> k != id2) ==>
            after.notifications[k] == st.notifications[k])
      && after.notifications[id1].targetId == u && IsUnread(after.notifications[id1])
      && (Bonus(amount) > 0 ==> after.notifications[id2].targetId == u && IsUnread(after.notifications[id2]))
  {
    var n1 := WalletNotice(u, amount, lang, first);
    var s2 := AfterWalletPart(st, u, c, amount, lang, first);
    assert s2.notifications == st.notifications[n1.notificationId := n1];
    if Bonus(amount) > 0 {
      var n2 := CoinsNotice(u, Bonus(amount), lang, second);
      var s4 := AfterCoinPart(s2, u, c, Bonus(amount), lang, second);
      assert s4.notifications == s2.notifications[n2.notificationId := n2];
    }
  }

  /** The wallet credit and its notification, followed by more writes. */
  lemma WalletPart(st: Store, u: string, c: Account, amount: int, lang: string, first: Stamp, rest: seq<Write>)
    requires u in st.users
    ensures ApplyWrites(st, WalletWrites(u, c, amount, lang, first) + rest) ==
      ApplyWrites(AfterWalletPart(st, u, c, amount, lang, first), rest)
  {
    var w := SetWalletBalance(u, OrZero(c.walletBalance) + amount);
    var n := WalletNotice(u, amount, lang, first);
    assert WalletWrites(u, c, amount, lang, first) == [w, CreateNotification(n)];
    FieldThenNotice(st, w, n, rest, AfterWalletPart(st, u, c, amount, lang, first));
  }

  /** The coin credit and its notification, followed by more writes. */
  lemma CoinPart(st: Store, u: string, c: Account, bonus: int, lang: string, second: Stamp, rest: seq<Write>)
    requires u in st.users
    ensures ApplyWrites(st, CoinWrites(u, c, bonus, lang, second) + rest) ==
      ApplyWrites(AfterCoinPart(st, u, c, bonus, lang, second), rest)
  {
    var w := SetCoins(u, OrZero(c.coins) + bonus);
    var n := CoinsNotice(u, bonus, lang, second);
    assert CoinWrites(u, c, bonus, lang, second) == [w, CreateNotification(n)];
    FieldThenNotice(st, w, n, rest, AfterCoinPart(st, u, c, bonus, lang, second));
  }

  /** An accepted field write and a notification, followed by more writes. */
  lemma FieldThenNotice(st: Store, w: Write, n: Notification, rest: seq<Write>, s2: Store)
    requires ApplyWrite(st, w).Some?
    requires s2 == ApplyWrite(st, w).value.(notifications := Put(ApplyWrite(st, w).value.notifications, n))
    ensures ApplyWrites(st, [w, CreateNotification(n)] + rest) == ApplyWrites(s2, rest)
  {
    var s1 := ApplyWrite(st, w).value;
    assert [w, CreateNotification(n)] + rest == [w] + ([CreateNotification(n)] + rest);
    ApplyOne(st, w, [CreateNotification(n)] + rest);
    ApplyOne(s1, CreateNotification(n), rest);
  }

  /** A write the store accepts, followed by more. */
  lemma ApplyOne(st: Store, w: Write, rest: seq<Write>)
    requires ApplyWrite(st, w).Some?
    ensures ApplyWrites(st, [w] + rest) == ApplyWrites(ApplyWrite(st, w).value, rest)
  {
    assert ([w] + rest)[1..] == rest;
  }

  /** A declined payment writes nothing. */
  lemma DeclinedTopUpChangesNothing(st: Store, client: Option<Account>, amount: int, lang: string,
                                    first: Stamp, second: Stamp)
    ensures ApplyWrites(st, TopUp(client, amount, lang, Failure, first, second)) == st
  {
  }

  /** When the client's document is gone, the first write is refused and nothing changes. */
  lemma MissingDocumentChangesNothing(st: Store, client: Option<Account>, amount: int, lang: string,
                                      first: Stamp, second: Stamp)
    requires CanCredit(client) && client.value.userId.value !in st.users
    ensures ApplyWrites(st, TopUp(client, amount, lang, Success, first, second)) == st
  {
  }

  /**
   * From an up-to-date record the wallet grows by exactly the amount and the
   * coins by exactly the bonus; with two distinct fresh stamps the top-up
   * adds one notification per balance it changes.
   */
  lemma FreshTopUpCreditsOnce(st: Store, u: string, amount: int, lang: string, first: Stamp, second: Stamp)
    requires u in st.users && st.users[u].userId == Some(u) && u != ""
    requires NotificationId(first.millis, first.salt) !in st.notifications
    requires NotificationId(second.millis, second.salt) !in st.notifications
    requires (first.millis, first.salt) != (second.millis, second.salt)
    ensures var after := ApplyWrites(st, TopUp(Some(st.users[u]), amount, lang, Success, first, second));
      && u in after.users
      && OrZero(after.users[u].walletBalance) == OrZero(st.users[u].walletBalance) + amount
      && OrZero(after.users[u].coins) == OrZero(st.users[u].coins) + Bonus(amount)
      && |after.notifications| == |st.notifications| + (if Bonus(amount) > 0 then 2 else 1)
  {
    TopUpCredits(st, Some(st.users[u]), amount, lang, first, second);
    var id1 := NotificationId(first.millis, first.salt);
    var id2 := NotificationId(second.millis, second.salt);
    if id1 == id2 {
      NotificationIdInjective(first.millis, first.salt, second.millis, second.salt);
    }
    var after := ApplyWrites(st, TopUp(Some(st.users[u]), amount, lang, Success, first, second));
    assert |after.notifications| == |after.notifications.Keys|;
    assert |st.notifications| == |st.notifications.Keys|;
  }

  /**
   * Two successful top-ups computed from the same loaded record (a second
   * charge before the page reloads) leave the wallet at the loaded balance
   * plus the second amount only: the second write overwrites the first credit.
   */
  lemma StaleRecordLosesFirstCredit(st: Store, client: Option<Account>, a1: int, a2: int, lang: string,
                                    s1: Stamp, s2: Stamp, s3: Stamp, s4: Stamp)
    requires CanCredit(client) && client.value.userId.value in st.users
    ensures var u := client.value.userId.value;
      var once := ApplyWrites(st, TopUp(client, a1, lang, Success, s1, s2));
      var twice := ApplyWrites(once, TopUp(client, a2, lang, Success, s3, s4));
      u in twice.users && twice.users[u].walletBalance == Some(OrZero(client.value.walletBalance) + a2)
  {
    var u := client.value.userId.value;
    var c := client.value;
    TopUpSteps(st, client, a1, lang, s1, s2);
    ChargedUsers(st, u, c, a1, lang, s1, s2);
    var once := Charged(st, u, c, a1, lang, s1, s2);
    TopUpSteps(once, client, a2, lang, s3, s4);
    ChargedUsers(once, u, c, a2, lang, s3, s4);
    var twice := Charged(once, u, c, a2, lang, s3, s4);
    assert twice.users[u] == Credited(once.users[u], client.value, a2);
  }

  /**
   * Charging 100 to an empty wallet writes a wallet balance of 100 and a coin
   * balance of 50, and creates two notifications.
   */
  lemma ChargeHundredFromEmpty(a: Account, u: string, amount: int, lang: string, first: Stamp, second: Stamp)
    requires amount == 100
    requires u != "" && a.userId == Some(u) && a.walletBalance == Some(0) && a.coins == Some(0)
    ensures var ws := TopUp(Some(a), amount, lang, Success, first, second);
      && |ws| == 4
      && ws[0] == SetWalletBalance(u, 100)
      && ws[2] == SetCoins(u, 50)
      && NotificationWrites(ws) == 2
  {
    assert OrZero(a.walletBalance) == 0 && OrZero(a.coins) == 0 && Bonus(amount) == 50;
    TopUpNotificationCount(Some(a), amount, lang, Success, first, second);
  }

  /** Charging a non-tier amount credits the wallet only, with one notification. */
  lemma ChargeOffTierAmount(st: Store, u: string, amount: int, lang: string, first: Stamp, second: Stamp)
    requires Bonus(amount) == 0
    requires u != "" && u in st.users && st.users[u].userId == Some(u)
    requires NotificationId(first.millis, first.salt) !in st.notifications
    requires NotificationId(second.millis, second.salt) !in st.notifications
    requires (first.millis, first.salt) != (second.millis, second.salt)
    ensures var after := ApplyWrites(st, TopUp(Some(st.users[u]), amount, lang, Success, first, second));
      && u in after.users
      && OrZero(after.users[u].walletBalance) == OrZero(st.users[u].walletBalance) + amount
      && after.users[u].coins == st.users[u].coins
      && |after.notifications| == |st.notifications| + 1
  {
    FreshTopUpCreditsOnce(st, u, amount, lang, first, second);
    TopUpCredits(st, Some(st.users[u]), amount, lang, first, second);
  }
}
